=== FILE: README.md ===
# IP-geolocation app: a Dafny model of its logic

The application is an IP-geolocation service with two web clients. Its API
handles four jobs:

- it looks up where an address is;
- it logs users in with a signed session cookie;
- it keeps a per-user search history in one of two stores;
- it serves that history back.

This project models the sequential logic behind those jobs as pure Dafny
functions and proves what each one promises.

- **Stores** (`FileStore`, `KvStore`, `Backend`). Two backends implement the
  same interface: a JSON document held in memory, and a Redis key space.
  Every operation is a function from state to state.
- **Lookup** (`Geo`). This covers:
  - the choice of target address from query, headers and socket;
  - the `::ffff:` stripping;
  - the private/loopback classifier;
  - the public-address substitution;
  - the provider choice;
  - the history write done only for signed-in callers.
- **Sessions** (`Session`, `AuthRoutes`). This covers:
  - token extraction from the cookie header;
  - required and optional authentication;
  - the bearer-header variant;
  - the login decision table, `/me` and `/logout`.
- **Clients** (`Dashboard`, `Home`, `IpText`, `Selection`). This covers:
  - normalisation of the two provider answer shapes;
  - the address patterns;
  - the `loc` parser;
  - the capped local history;
  - the checkbox selections.

`Wrappers`, `Strings` and `Seqs` give JavaScript's `||`, truthiness, `trim`,
`split`, `startsWith`, `replace` and `filter` the exact semantics the code relies on.

External behaviour appears as parameters:

- JWT `verify` and `sign`;
- `fetch` to the providers, and the public-address service's answer;
- `randomUUID` and `Date` values (fresh ids and instants);
- JavaScript `Number` (`string -> Option<real>`, nothing standing for `NaN`);
- environment variables.

Behaviour worth knowing:

- Listing from the key-value store reads positions 0..100 inclusive, so it
  returns up to 101 entries, not 100.
- Email lookup is exact and case-sensitive in both stores.
- A provider failure is an error. Nothing falls back to the other provider.
- Key-value deletion is not scoped to the caller, and an id `list:<u>` passed to it deletes user u's whole list key `history:list:<u>` (see Findings).

## Model

| member | source | states |
|---|---|---|
| FileStore.FindUserByEmail | api/src/store/datastore.ts:44 | nothing iff no user has exactly this email; otherwise the user at the first position with that email |
| FileStore.FindUserAppend | api/src/store/datastore.ts:44 | users added after an existing match never change who is found |
| FileStore.SeedUsers | api/src/store/datastore.ts:56-60 | existing users stay a prefix, unchanged; every seed email ends up present; each inserted user had an absent email and comes from the first seed with that email, with its fresh id; inserted emails are pairwise distinct, so a repeated input email is inserted once |
| FileStore.EnsureSeedUsers | api/src/store/datastore.ts:56-60 | history untouched, existing users a prefix, every seed email present |
| FileStore.SeedUsersPresent | api/src/store/datastore.ts:58-59 | when every seed email is already present nothing is added |
| FileStore.SeedIdempotent | api/src/store/datastore.ts:56-60 | seeding twice with the same list equals seeding once, whatever ids the second call would draw |
| FileStore.SeedKeepsExisting | api/src/store/datastore.ts:56-60 | seeding never changes who is found for an email that was present, so ids and passwords survive |
| FileStore.AddHistory | api/src/store/datastore.ts:45-47 | exactly one entry `{id, userId, ip, data, createdAt}` appended; users and earlier entries unchanged |
| FileStore.AddHistoryKeepsIdsUnique | api/src/store/datastore.ts:46 | with a fresh id, entry ids stay pairwise distinct |
| FileStore.AddHistoryListed | api/src/store/datastore.ts:45-50 | the owner's listing gains exactly the new entry (as a multiset) |
| FileStore.AddHistoryOthersUnchanged | api/src/store/datastore.ts:45-50 | another user's listing is unchanged by an add |
| FileStore.InsertByTime | api/src/store/datastore.ts:50 | inserting into a newest-first list keeps it newest first and adds exactly one element |
| FileStore.SortNewestFirst | api/src/store/datastore.ts:50 | the sort's result is newest first and a permutation of its input |
| FileStore.ListHistory | api/src/store/datastore.ts:49-51 | newest first, and each entry occurs as often as in the document when its owner is the caller, otherwise never |
| FileStore.DeleteHistory | api/src/store/datastore.ts:52-55 | users unchanged; an entry disappears iff it is the caller's and its id is listed, every other entry keeps its count, and the result is a subsequence of the history, so the survivors keep their order |
| FileStore.DeleteNothing | api/src/store/datastore.ts:53 | an empty id list changes nothing |
| FileStore.DeleteScoped | api/src/store/datastore.ts:53 | another user's listing is unchanged even when their ids are passed |
| KvStore.FindUserByEmail | api/src/store/datastore.ts:67-71 | something iff the email key exists, and then the stored user |
| KvStore.SeedUsers | api/src/store/datastore.ts:100-108 | existing keys keep their users; every seed email is stored; a new key holds the user from the first seed with that email; no other keys appear |
| KvStore.EnsureSeedUsers | api/src/store/datastore.ts:100-108 | entries and lists untouched; existing users kept; every seed email stored |
| KvStore.SeedUsersPresent | api/src/store/datastore.ts:102-103 | when every seed email is stored nothing changes |
| KvStore.SeedIdempotent | api/src/store/datastore.ts:100-108 | seeding twice equals seeding once |
| KvStore.AddHistory | api/src/store/datastore.ts:72-77 | the entry is stored under its id; other entry keys unchanged; the id is pushed to the front of the caller's list; other users' lists unchanged |
| KvStore.Resolve | api/src/store/datastore.ts:80-89 | the entries of exactly the ids whose key exists, one for one and in list order |
| KvStore.Window | api/src/store/datastore.ts:79 | `LRANGE 0 100`: a prefix of the list, the whole list when it has at most 101 ids and exactly the first 101 otherwise |
| KvStore.ListHistory | api/src/store/datastore.ts:78-91 | exactly the stored entries of the present ids among the first 101 of the caller's list, one for one and in list order; hence at most 101 entries, each from a position at most 100 |
| KvStore.ListAllPresent | api/src/store/datastore.ts:78-91 | with every key present and a short list, the listing is exactly the entries in list order |
| KvStore.ListReturns101 | api/src/store/datastore.ts:79 | with more than 101 stored ids the listing has exactly 101 entries |
| KvStore.AddHistoryListedFirst | api/src/store/datastore.ts:72-91 | after an add, the new entry heads the owner's listing |
| KvStore.DeleteHistory | api/src/store/datastore.ts:92-98 | as written: every listed entry key is deleted whoever owns it; an id `list:<u>` deletes user u's list; the caller's list otherwise loses every occurrence of the listed ids and keeps the rest in order, with their repeats, as `LREM key 0 id` does; other users' lists not so named and the users are unchanged |
| KvStore.RemoveFromList | api/src/store/datastore.ts:96 | `LREM key 0 id` for each id: the caller's list keeps the ids not listed, in order; other lists unchanged |
| KvStore.DeleteCrossesOwners | api/src/store/datastore.ts:92-98 | a concrete store where alice's delete removes bob's only entry from bob's listing, while bob's list still names it |
| KvStore.DeleteWipesList | api/src/store/datastore.ts:92-98 | as written: alice deleting `["list:bob"]` leaves every entry stored but empties bob's listing |
| KvStore.ScopedKeepsList | api/src/store/datastore.ts:92-98 | corrected: on the same store and request, bob's listing survives |
| KvStore.DeleteHistoryScoped | api/src/store/datastore.ts:92-98 | corrected: only entry keys owned by the caller are deleted; the caller's list loses every occurrence of the listed ids and keeps the rest in order, with their repeats; other lists unchanged |
| KvStore.DeleteScopedOthersUnchanged | api/src/store/datastore.ts:92-98 | on a store where every listed id is owned by its list's user, the corrected delete leaves other users' listings unchanged |
| KvStore.AddHistoryKeepsConsistent | api/src/store/datastore.ts:72-77 | adding under a fresh id keeps every list naming only its user's entries |
| KvStore.DeleteScopedKeepsConsistent | api/src/store/datastore.ts:92-98 | the corrected delete keeps that ownership invariant |
| KvStore.ResolveAgree | api/src/store/datastore.ts:80-89 | the listing depends only on the entry keys the list names |
| Backend.FindUserByEmail | api/src/store/datastore.ts:11 | the chosen backend's lookup; on the file store nothing iff no user has the email, and a found user has exactly that email |
| Backend.AddHistory | api/src/store/datastore.ts:12 | on either backend the backend stays the same and the added entry shows in its owner's listing |
| Backend.ListHistory | api/src/store/datastore.ts:13 | the chosen backend's listing: only the caller's entries from the file store, at most 101 entries from the key-value store |
| Backend.ChooseKind | api/src/store/datastore.ts:20-28 | the Redis store iff a non-empty Redis URL and `NODE_ENV` is exactly `production` |
| Backend.AddHistoryOthersUnchanged | api/src/store/datastore.ts:45-91 | on either backend an add under an id no other user's list names leaves every other user's listing unchanged |
| Geo.SanitizeIp | api/src/routes/geo.ts:44-46 | removes one leading `::ffff:` and leaves other strings unchanged |
| Geo.SanitizeOnce | api/src/routes/geo.ts:44-46 | a doubled prefix loses only one copy |
| Geo.GetRequestedIp | api/src/routes/geo.ts:33-42 | precedence query, first trimmed forwarded entry, `x-real-ip`, socket address with `::ffff:` removed; each sanitised; nothing iff all four are empty |
| Geo.QueryWins | api/src/routes/geo.ts:34-35 | with a non-empty query the headers and socket do not matter |
| Geo.ForwardedUsesFirstEntry | api/src/routes/geo.ts:36 | only the trimmed text before the first comma of `x-forwarded-for` is used |
| Geo.Is172PrivateMeansRange | api/src/routes/geo.ts:53 | the 172 pattern holds iff the address starts with `172.N.` for N in 16..31 |
| Geo.IsPrivateOrLocal | api/src/routes/geo.ts:48-56 | an address is private or local only if it is `::1` or starts with `1` or `f` |
| Geo.PrivateOrLocalRanges | api/src/routes/geo.ts:48-56 | private or local iff a loopback literal, one of the prefixes `10.`, `192.168.`, `fc`, `fd`, or `172.N.` with N in 16..31 |
| Geo.PrivateEdges | api/src/routes/geo.ts:48-56 | `172.15.0.1`, `172.32.0.1`, `127.0.0.2`, `FD00::1` public; `172.16.0.1`, `172.31.255.255`, `10.1.2.3`, `fd00::1` private |
| Geo.ProviderFor | api/src/routes/geo.ts:59-60 | the keyed provider iff an API key is configured |
| Geo.ProviderUrl | api/src/routes/geo.ts:61-67 | with a key, `https://ipinfo.io/<ip>?token=<key>`; without one, `http://ip-api.com/json/<ip>` |
| Geo.LookupIp | api/src/routes/geo.ts:58-72 | success iff the single fetch answers OK, with its body; a non-OK answer is `Failed IP lookup`; a network error keeps its message |
| Geo.NoFallback | api/src/routes/geo.ts:58-72 | the result depends only on the answer for the one chosen URL |
| Geo.FinalTarget | api/src/routes/geo.ts:12-21 | the target changes only when it is private and the public-address service answered OK with a truthy ip, and then becomes that ip |
| Geo.ProviderUrlNamesAddress | api/src/routes/geo.ts:61-67 | with one key, two different addresses never share a lookup URL, so the fetched URL names the address looked up |
| Geo.ErrorMessage | api/src/routes/geo.ts:29 | the error text is the thrown message when it is non-empty and `Lookup failed` otherwise, so never empty |
| Geo.Lookup | api/src/routes/geo.ts:8-31 | 400 iff no target, with no calls and no write; otherwise the public-address call iff the target is private, then one provider call; 200 iff the provider succeeds, echoing the final ip and data; on 500 the lookup error's message with the `Lookup failed` fallback and no write; history written only on 200 for a signed-in caller |
| Geo.LookupRecordsHistory | api/src/routes/geo.ts:22-27 | a successful signed-in lookup leaves its final ip and data in the caller's listing |
| Geo.SubstitutionProbe | api/src/routes/geo.ts:12-22 | the last call is the provider, and the public-address service is called iff the target is private |
| Session.SecretOf | api/src/middleware/auth.ts:13 | the configured secret when non-empty, else `dev-secret` |
| Session.Parts | api/src/middleware/auth.ts:39 | one trimmed part per `;`-separated piece |
| Session.TokenIn | api/src/middleware/auth.ts:40-43 | nothing iff no part starts with `token=`; otherwise the text after `token=` in the first such part |
| Session.ExtractTokenFromHeader | api/src/middleware/auth.ts:36-44 | nothing for a missing or empty header; otherwise the token in the header, an array joined with `;` first |
| Session.FirstTokenWins | api/src/middleware/auth.ts:40-42 | later `token=` parts never override an earlier one |
| Session.PrefixedNameIgnored | api/src/middleware/auth.ts:41 | `xtoken=...` is not a token |
| Session.RequestToken | api/src/middleware/auth.ts:11 | the structured cookie when non-empty, else the raw header's token |
| Session.AuthMiddleware | api/src/middleware/auth.ts:9-20 | rejected with 401 iff no token or verification fails; otherwise proceeds with `{id: sub, email}` |
| Session.OptionalAuth | api/src/middleware/auth.ts:22-34 | always proceeds; a user is attached iff a token is present and verifies |
| Session.OptionalAgreesWithRequired | api/src/middleware/auth.ts:9-34 | optional auth proceeds with the same user where required auth accepts, anonymously where it rejects |
| Session.AuthRequired | api/src/middleware/auth.js:4-17 | `Missing bearer token` iff no header or no case-sensitive `Bearer ` prefix; the token is the rest after 7 characters; `Invalid or expired token` iff it fails to verify; otherwise the payload's user |
| AuthRoutes.Login | api/src/routes/auth.ts:8-18 | 400 iff email or password is falsy; 401 with one body iff the exact-email lookup finds nobody or the password differs; otherwise `{id, email}` and a token over `{sub: id, email}` for one hour |
| AuthRoutes.LoginMissingFieldIgnoresStore | api/src/routes/auth.ts:9-10 | with a field missing the answer does not depend on the store |
| AuthRoutes.SeededUserLogsIn | api/src/routes/auth.ts:12-17 | a freshly seeded user logs in with its password and gets 401 with any other |
| AuthRoutes.Me | api/src/routes/auth.ts:25-35 | 401 iff the structured cookie is missing or fails to verify; otherwise the payload's user |
| AuthRoutes.MeAgreesWithMiddleware | api/src/routes/auth.ts:25-35 | `/me` answers like the middleware with no raw header |
| AuthRoutes.Logout | api/src/routes/auth.ts:20-23 | always `{ok: true}` and the cookie is cleared |
| Dashboard.Coordinates | web/app/dashboard/page.tsx:17-28 | explicit `lat`/`lon` kept when both present; otherwise a two-part `loc` that parses on both sides replaces both; any change comes only from that case |
| Dashboard.NormalizeGeo | web/app/dashboard/page.tsx:15-33 | nothing gives `{}`; otherwise those coordinates, `isp` or `org`, `query` or `ip` or the fallback, `city` or `region`, and the country as given |
| Dashboard.ShapesAgree | web/app/dashboard/page.tsx:15-33 | a keyless-provider answer and a keyed-provider answer with matching values normalise to the same record when `loc` parses to the coordinates |
| Dashboard.ShapesAgreeOnExample | web/app/dashboard/page.tsx:15-33 | the two shapes agree for `loc` `37.4,-122.1` |
| IpText.IsDottedQuad | web/app/dashboard/page.tsx:69-71 | an address the pattern accepts is 7 to 15 characters, all digits and dots |
| IpText.DottedQuadShape | web/app/dashboard/page.tsx:69-71 | the pattern accepts exactly four 1-3 digit runs joined by dots |
| IpText.QuadIsDotted | web/app/dashboard/page.tsx:69-71 | four digit runs joined by dots split back into those runs and are accepted |
| IpText.PatternAcceptsOutOfRange | web/app/dashboard/page.tsx:69-71 | as written: a quad whose first octet exceeds 255 passes the pattern and fails the 0-255 check the dialog promises |
| IpText.OutOfRangeWitness | web/app/dashboard/page.tsx:251 | `999` is a digit run of value 999 |
| IpText.InRangeOctets | web/app/dashboard/page.tsx:251 | corrected: the in-range check accepts exactly four digit runs of value at most 255 each, joined by dots |
| Selection.Toggle | web/app/dashboard/page.tsx:112-116 | the id's membership flips; every other id keeps its membership |
| Selection.ToggleTwice | web/app/dashboard/page.tsx:112-116 | toggling twice restores the selection |
| Selection.SelectAll | web/app/dashboard/page.tsx:118-121 | cleared when the sizes match, otherwise exactly the history ids |
| Selection.SelectAllTogglesAll | web/app/dashboard/page.tsx:118-121 | with distinct ids, a full selection is cleared and any other one pressed twice ends empty |
| Selection.SelectAllComparesSizesOnly | web/app/dashboard/page.tsx:119 | a stale selection of the right size is cleared, not completed |
| Home.ValidateIp | web/src/pages/HomePage.tsx:10 | an accepted input is non-empty and uses only digits, dots, colons and hex letters |
| Home.ValidateIpShape | web/src/pages/HomePage.tsx:10 | accepted iff a dotted quad of digit runs, or a non-empty run of hex digits and colons |
| Home.ParseLoc | web/src/pages/HomePage.tsx:12-17 | as written: nothing for a missing or empty text; something iff the first part parses and the second does when present; no longitude iff there is no comma |
| Home.OnePartLoc | web/src/pages/HomePage.tsx:12-17 | a comma-free parsable text gives a position with no longitude, which the strict parser refuses |
| Home.OnePartLocExample | web/src/pages/HomePage.tsx:12-17 | `37.4` gives latitude 37.4 and no longitude |
| Home.ParseLocStrict | web/src/pages/HomePage.tsx:12-17 | corrected: a position iff the text has a second part and both parts parse, with those numbers |
| Home.StrictRefinesAsWritten | web/src/pages/HomePage.tsx:12-17 | the strict parser accepts exactly the written one's results that have a longitude, with the same numbers |
| Home.StrictAgreesWithDashboard | web/src/pages/HomePage.tsx:12-17 | on a two-part `loc` the strict parser and the dashboard's normalisation give the same coordinates |
| Home.Prepend | web/src/pages/HomePage.tsx:59 | the new item first, then the previous items in order, the length capped at 50 |
| Home.SearchAllKeepsLatest | web/src/pages/HomePage.tsx:59 | after any run of searches the history is the 50 newest items, newest first |
| Home.HandleSearch | web/src/pages/HomePage.tsx:49-64 | an invalid input only sets `Invalid IP address`; a failed lookup only sets `Lookup failed`; a success shows the answer, prepends `{id, ip, timestamp}`, clears the input and the error, and moves the map to the position when `loc` gives one, leaving it where it was otherwise |
| Home.SearchIsPrepend | web/src/pages/HomePage.tsx:52-59 | a successful search changes the history exactly as one prepend |
| Home.ToggleSelect | web/src/pages/HomePage.tsx:70-72 | only the selection changes, and only in the toggled id |
| Home.DeleteSelected | web/src/pages/HomePage.tsx:74-78 | a no-op on an empty selection; otherwise an entry survives iff its id is unselected, with its count kept and in its order (the `filter` of the history), and the selection is cleared |
| Home.DeleteOneSelected | web/src/pages/HomePage.tsx:70-78 | selecting one id and deleting removes exactly that id's entries, in order, and clears the selection |
| Home.DeleteKeepsUnselected | web/src/pages/HomePage.tsx:74-78 | when no entry is selected, deleting only clears the selection |
| Strings.Trim | api/src/middleware/auth.ts:39 | `trim`: a slice with only white space cut on both sides and none left at its ends |
| Strings.RemoveFirst | api/src/routes/geo.ts:40 | `replace` with a string pattern: unchanged when the pattern does not occur, otherwise the first occurrence cut out |
| Strings.Split | api/src/middleware/auth.ts:39 | `split` on one character: at least one part, no part containing it, joining the parts gives the input |
| Strings.SplitJoin | api/src/middleware/auth.ts:39 | splitting parts joined by the separator gives them back |
| Seqs.Filter | api/src/store/datastore.ts:50 | `filter`: an element is kept iff it passes the test, with its count |
| Seqs.FilterSubsequence | api/src/store/datastore.ts:53 | what `filter` keeps is a subsequence of its input: the kept elements stay in their order |
| Seqs.FilterAppend | api/src/store/datastore.ts:53 | filtering distributes over concatenation |

## Left out

- Filesystem, Redis and network I/O are not modelled. The stores are in-memory values. The public-address service, the providers and JWT are parameters.
- Persistence that swallows write errors is left out. A file that fails to parse is also left out; on load it falls back to the empty document.
- Async interleavings are left out: the seeding race, read-modify-write on the document, and Redis pipeline atomicity. Each operation is one atomic step.
- The `getStore` singleton cache is left out. `Backend.ChooseKind` is the one decision it makes.
- Redis key namespaces `user:email:`, `history:` and `history:list:` are three maps. `history:<id>` with an id `list:<u>` is the key `history:list:<u>`; the model follows that overlap in `deleteHistory`'s `DEL`, the one place a client-chosen id reaches a key. `SET` and `GET` use ids the store draws as UUIDs, which never start with `list:`. An empty list equals a missing key, as `LREM` deletes emptied lists.
- JSON encoding of stored values is left out. A stored value is the record itself.
- `createdAt` is an ISO-8601 string of one fixed format. It is modelled as a natural number, because string order and time order agree.
- The file store's sort is stable. The model sorts stably, but no contract states stability.
- FileStore.ListHistory: states order and contents as a multiset. It does not state which of two entries with equal `createdAt` comes first.
- Dashboard.Coordinates: a JSON `null` and a missing field are both nothing. The source's `lat === undefined` test treats a `null` latitude as present and skips the `loc` fallback, where the model falls back. `null` is not modelled as a separate value.
- A query parameter given as an array and other non-string header values are not modelled.
- A provider answer is the record it parses to. JSON parse failures and an `addHistory` that throws are not modelled; in the source both lead to the 500 path.
- The handler's `ip as string` is left out. The handler only runs with a truthy target.
- `Number` and `NaN` are an abstract partial parse. Floating-point formatting is not modelled.
- Rendering, the Leaflet map, modals and styling are not modelled. `mapTarget` is kept only as the map position a search sets.
- The dashboard's `searchIp`, `loadSelf`, `loadHistory` and `deleteSelected` are request glue around the modelled operations.
- Home.HandleSearch: moves the map with the corrected `loc` parser. The code as written uses `parseLoc`; `Home.ParseLoc` and the finding below model that.
- The browser-side `fetchGeo` is a parameter of the search: its answer, or nothing when it throws.
- `localStorage` persistence of the home page's history is left out. The history is the page's state.

## Findings

| source | as written | input that shows it | evidently intended | confidence | as-written member | corrected member |
|---|---|---|---|---|---|---|
| api/src/store/datastore.ts:92-98 | the Redis `deleteHistory` deletes `history:<id>` for every id passed, without checking the entry's owner; only the caller's list is edited | alice deletes `["h1"]` while `h1` is bob's entry: bob's list still names `h1`, but his listing loses it | entries deleted only when owned by the caller, as the file store does | high, not executed | KvStore.DeleteCrossesOwners | KvStore.DeleteScopedOthersUnchanged |
| api/src/store/datastore.ts:95 | the Redis `deleteHistory` runs `DEL history:<id>` on every id the request body names, and `history:` is a prefix of the list keys `history:list:<u>` | alice deletes `["list:bob"]`: bob's list key is deleted and his listing becomes empty, although none of his entries was named | entry keys deleted only for entries the caller owns, which no list key is | high, not executed | KvStore.DeleteWipesList | KvStore.DeleteScopedOthersUnchanged |
| web/app/dashboard/page.tsx:69-71 | `isValidIp` checks only the shape `(\d{1,3}\.){3}\d{1,3}` | `999.1.1.1` is accepted, although the dialog says only 0-255 per octet | also require every octet to be at most 255 | high, not executed | IpText.PatternAcceptsOutOfRange | IpText.InRangeOctets |
| web/src/pages/HomePage.tsx:12-17 | `parseLoc` destructures `[lat, lng]`; with no comma `lng` is `undefined`, and `Number.isNaN(undefined)` is false | `loc` `"37.4"` gives `{lat: 37.4, lng: undefined}`, which is then used as a map position | no position unless both coordinates are numbers | medium, not executed | Home.OnePartLoc | Home.StrictRefinesAsWritten |

=== FILE: auth_routes.dfy ===
/** The `/auth` routes: the login decision, `/me` and `/logout`. Signing
    (`jwt.sign`) and verification are parameters. */
module AuthRoutes {
  import opened Wrappers
  import opened Records
  import Backend
  import FileStore
  import Session

  /** The login request body; a field may be missing. */
  datatype LoginBody = LoginBody(email: Option<string>, password: Option<string>)

  /** What a response may reveal about a user: never the password. */
  datatype PublicUser = PublicUser(id: string, email: string)

  /** The lifetime of a session token, `expiresIn: '1h'`, in seconds. */
  const TokenLifetime: nat := 3600

  /** A login response: 400, the uniform 401, or the user with the token set
      as the session cookie. */
  datatype LoginReply = BadRequest(error: string) | Unauthorized(error: string) | LoggedIn(user: PublicUser, token: string)

  /** The single 401 body: the same for an unknown email and a wrong password. */
  const InvalidCredentials := "Invalid credentials"

  /** `POST /login`. */
  function Login(body: LoginBody, store: Backend.Store, secretEnv: Option<string>,
                 sign: (Claims, string, nat) -> string): (r: LoginReply)
    ensures !Truthy(body.email) || !Truthy(body.password) <==> r == BadRequest("Email and password required")
    ensures r.Unauthorized? ==> r == Unauthorized(InvalidCredentials)
    ensures Truthy(body.email) && Truthy(body.password) ==>
              var found := Backend.FindUserByEmail(store, body.email.value);
              && (r.Unauthorized? <==> found.None? || found.value.password != body.password.value)
              && (r.LoggedIn? ==>
                    && r.user == PublicUser(found.value.id, found.value.email)
                    && r.token == sign(Claims(found.value.id, found.value.email), Session.SecretOf(secretEnv), TokenLifetime))
  {
    if !Truthy(body.email) || !Truthy(body.password) then BadRequest("Email and password required")
    else
      match Backend.FindUserByEmail(store, body.email.value)
      case None => Unauthorized(InvalidCredentials)
      case Some(u) =>
        if u.password != body.password.value then Unauthorized(InvalidCredentials)
        else LoggedIn(PublicUser(u.id, u.email), sign(Claims(u.id, u.email), Session.SecretOf(secretEnv), TokenLifetime))
  }

  /** A request missing a field is refused before the store is read: the
      answer is the same whatever the store holds. */
  lemma LoginMissingFieldIgnoresStore(body: LoginBody, s1: Backend.Store, s2: Backend.Store, secretEnv: Option<string>,
                                      sign: (Claims, string, nat) -> string)
    requires !Truthy(body.email) || !Truthy(body.password)
    ensures Login(body, s1, secretEnv, sign) == Login(body, s2, secretEnv, sign)
  {
  }

  /** A seeded user logs in with its seed password and with no other, on the
      file store. */
  lemma SeededUserLogsIn(d: FileStore.Doc, email: string, password: string, attempt: string, id: string,
                         secretEnv: Option<string>, sign: (Claims, string, nat) -> string)
    requires email != "" && password != "" && attempt != ""
    requires !FileStore.HasEmail(d.users, email)
    ensures var d' := FileStore.EnsureSeedUsers(d, [SeedUser(email, password)], [id]);
            var r := Login(LoginBody(Some(email), Some(attempt)), Backend.FileBacked(d'), secretEnv, sign);
            && (attempt == password ==> r.LoggedIn? && r.user == PublicUser(id, email))
            && (attempt != password ==> r == Unauthorized(InvalidCredentials))
  {
    var d' := FileStore.EnsureSeedUsers(d, [SeedUser(email, password)], [id]);
    var u := User(id, email, password);
    var seeds := [SeedUser(email, password)];
    assert FileStore.SeedOne(d.users, seeds[0], id) == d.users + [u];
    assert seeds[1..] == [] && [id][1..] == [];
    assert FileStore.SeedUsers(d.users, seeds, [id]) == FileStore.SeedUsers(d.users + [u], [], []);
    assert d'.users == d.users + [u];
    var i := FileStore.FirstWithEmail(d'.users, email).value;
    assert i == |d.users|;
  }

  /** The `/me` response: the user a verified cookie describes, or 401. */
  datatype MeReply = MeUnauthorized | MeUser(user: PublicUser)

  /** `GET /me`: reads only the parsed `token` cookie (no raw-header
      fallback); a missing or unverifiable token is a 401. */
  function Me(cookieToken: Option<string>, secretEnv: Option<string>,
              verify: (string, string) -> Option<Claims>): (r: MeReply)
    ensures r.MeUnauthorized? <==> !Truthy(cookieToken) || verify(cookieToken.value, Session.SecretOf(secretEnv)).None?
    ensures r.MeUser? ==> var c := verify(cookieToken.value, Session.SecretOf(secretEnv)).value;
                      r.user == PublicUser(c.sub, c.email)
  {
    if !Truthy(cookieToken) then MeUnauthorized
    else match verify(cookieToken.value, Session.SecretOf(secretEnv))
      case None => MeUnauthorized
      case Some(c) => MeUser(PublicUser(c.sub, c.email))
  }

  /** `/me` admits exactly the requests the session middleware admits when
      only the parsed cookie is present, and names the same user. */
  lemma MeAgreesWithMiddleware(cookieToken: Option<string>, secretEnv: Option<string>,
                               verify: (string, string) -> Option<Claims>)
    ensures var g := Session.AuthMiddleware(cookieToken, Session.NoHeader, secretEnv, verify);
            var r := Me(cookieToken, secretEnv, verify);
            && (r.MeUser? <==> g.Proceed?)
            && (r.MeUser? ==> g.user == Some(AuthUser(r.user.id, r.user.email)))
  {
  }

  /** The `/logout` response: `{ok}` and whether the cookie is cleared. */
  datatype LogoutReply = LogoutReply(ok: bool, clearsCookie: bool)

  /** `POST /logout`: always clears the cookie and answers `{ok: true}`. */
  function Logout(): (r: LogoutReply)
    ensures r.ok && r.clearsCookie
  {
    LogoutReply(true, true)
  }
}

=== FILE: backend.dfy ===
/** `getStore`: the store interface over its two backends, chosen once by
    configuration. */
module Backend {
  import opened Wrappers
  import opened Records
  import FileStore
  import KvStore

  /** Which backend `getStore` builds. */
  datatype Kind = FileKind | KvKind

  /** The store a request handler talks to. */
  datatype Store = FileBacked(doc: FileStore.Doc) | KeyValue(kv: KvStore.Kv)

  /** The key-value backend is used only with a Redis URL in production;
      everything else gets the file store. */
  function ChooseKind(redisUrl: Option<string>, nodeEnv: Option<string>): (k: Kind)
    ensures k == KvKind <==> Truthy(redisUrl) && nodeEnv == Some("production")
  {
    if Truthy(redisUrl) && nodeEnv == Some("production") then KvKind else FileKind
  }

  /** `findUserByEmail` of whichever backend the store is. */
  function FindUserByEmail(s: Store, email: string): (r: Option<User>)
    ensures s.FileBacked? ==> r == FileStore.FindUserByEmail(s.doc, email)
    ensures s.FileBacked? ==> (r.None? <==> !FileStore.HasEmail(s.doc.users, email))
    ensures s.FileBacked? && r.Some? ==> r.value.email == email
    ensures s.KeyValue? ==> r == KvStore.FindUserByEmail(s.kv, email)
  {
    match s
    case FileBacked(d) => FileStore.FindUserByEmail(d, email)
    case KeyValue(kv) => KvStore.FindUserByEmail(kv, email)
  }

  /** `addHistory` of whichever backend the store is: the backend stays the
      same and the new entry shows in its owner's listing. */
  function AddHistory(s: Store, userId: string, ip: string, data: RawGeo, id: string, now: nat): (r: Store)
    ensures r.FileBacked? == s.FileBacked?
    ensures HistoryItem(id, userId, ip, data, now) in ListHistory(r, userId)
  {
    var item := HistoryItem(id, userId, ip, data, now);
    match s
    case FileBacked(d) =>
      var d' := FileStore.AddHistory(d, userId, ip, data, id, now);
      FileStore.AddHistoryListed(d, userId, ip, data, id, now);
      assert item in multiset(FileStore.ListHistory(d', userId));
      FileBacked(d')
    case KeyValue(kv) =>
      KvStore.AddHistoryListedFirst(kv, userId, ip, data, id, now);
      KeyValue(KvStore.AddHistory(kv, userId, ip, data, id, now))
  }

  /** `listHistory` of whichever backend the store is: only the caller's
      entries from the file store; at most 101 from the key-value store. */
  function ListHistory(s: Store, userId: string): (r: seq<HistoryItem>)
    ensures s.FileBacked? ==> r == FileStore.ListHistory(s.doc, userId)
    ensures s.FileBacked? ==> forall x :: x in r ==> x.userId == userId
    ensures s.KeyValue? ==> r == KvStore.ListHistory(s.kv, userId) && |r| <= KvStore.ListStop + 1
  {
    match s
    case FileBacked(d) => FileStore.ListHistory(d, userId)
    case KeyValue(kv) => KvStore.ListHistory(kv, userId)
  }

  /** On either backend, adding an entry leaves every other user's listing
      unchanged, given an id no other user's list names (the fresh UUID
      `addHistory` draws). */
  lemma AddHistoryOthersUnchanged(s: Store, userId: string, ip: string, data: RawGeo, id: string, now: nat, other: string)
    requires other != userId
    requires s.KeyValue? ==> id !in KvStore.Index(s.kv, other)
    ensures ListHistory(AddHistory(s, userId, ip, data, id, now), other) == ListHistory(s, other)
  {
    match s
    case FileBacked(d) =>
      FileStore.AddHistoryOthersUnchanged(d, userId, ip, data, id, now, other);
    case KeyValue(kv) =>
      var kv' := KvStore.AddHistory(kv, userId, ip, data, id, now);
      var w := KvStore.Window(KvStore.Index(kv, other));
      assert KvStore.Index(kv', other) == KvStore.Index(kv, other);
      forall i | 0 <= i < |w| ensures w[i] != id {
        assert w[i] == KvStore.Index(kv, other)[i];
      }
      KvStore.ResolveAgree(w, kv'.items, kv.items);
  }
}

=== FILE: dashboard.dfy ===
/** The dashboard page's record normalisation. JavaScript's `Number`
    conversion is a parameter `parse`: the number a text denotes, or nothing
    where `Number` gives `NaN`. */
module Dashboard {
  import opened Wrappers
  import opened Records
  import opened Strings

  /** The canonical record the page displays. */
  datatype GeoData = GeoData(
    lat: Option<real>, lon: Option<real>,
    country: Option<string>, city: Option<string>, isp: Option<string>, query: Option<string>)

  /** `{}`. */
  const NoData := GeoData(None, None, None, None, None, None)

  /** The coordinates: explicit `lat`/`lon` when both are defined; otherwise
      a `loc` text of exactly two comma parts that both parse replaces both;
      otherwise the raw values stand. */
  function Coordinates(raw: RawGeo, parse: string -> Option<real>): (c: (Option<real>, Option<real>))
    ensures raw.lat.Some? && raw.lon.Some? ==> c == (raw.lat, raw.lon)
    ensures (raw.lat.None? || raw.lon.None?) && raw.loc.Some? && |Split(raw.loc.value, ',')| == 2
            && parse(Split(raw.loc.value, ',')[0]).Some? && parse(Split(raw.loc.value, ',')[1]).Some?
            ==> c == (parse(Split(raw.loc.value, ',')[0]), parse(Split(raw.loc.value, ',')[1]))
    ensures c != (raw.lat, raw.lon) ==>
              && (raw.lat.None? || raw.lon.None?) && raw.loc.Some?
              && var parts := Split(raw.loc.value, ',');
                 |parts| == 2 && c.0.Some? && c.1.Some? && c == (parse(parts[0]), parse(parts[1]))
  {
    if (raw.lat.None? || raw.lon.None?) && raw.loc.Some? then
      var parts := Split(raw.loc.value, ',');
      if |parts| == 2 && parse(parts[0]).Some? && parse(parts[1]).Some? then (parse(parts[0]), parse(parts[1]))
      else (raw.lat, raw.lon)
    else (raw.lat, raw.lon)
  }

  /** `normalizeGeo`: nothing gives `{}`; otherwise the coordinates above,
      `isp || org`, `query || ip || fallbackIp`, `city || region`, and the
      country as given. */
  function NormalizeGeo(raw: Option<RawGeo>, fallbackIp: Option<string>, parse: string -> Option<real>): (g: GeoData)
    ensures raw.None? ==> g == NoData
    ensures raw.Some? ==>
              && (g.lat, g.lon) == Coordinates(raw.value, parse)
              && g.isp == OrElse(raw.value.isp, raw.value.org)
              && g.query == OrElse(OrElse(raw.value.query, raw.value.ip), fallbackIp)
              && g.city == OrElse(raw.value.city, raw.value.region)
              && g.country == raw.value.country
  {
    match raw
    case None => NoData
    case Some(r) =>
      var c := Coordinates(r, parse);
      GeoData(c.0, c.1, r.country, OrElse(r.city, r.region), OrElse(r.isp, r.org), OrElse(OrElse(r.query, r.ip), fallbackIp))
  }

  /** The keyless provider's shape: `{query, country, city, isp, lat, lon}`. */
  function IpApiShape(ip: string, country: Option<string>, city: string, isp: string, lat: real, lon: real): RawGeo {
    RawGeo(None, Some(ip), Some(city), None, country, None, Some(isp), None, Some(lat), Some(lon))
  }

  /** The keyed provider's shape: `{ip, city, region, country, org, loc}`. */
  function IpInfoShape(ip: string, country: Option<string>, city: string, region: Option<string>, org: string, loc: string): RawGeo {
    RawGeo(Some(ip), None, Some(city), region, country, Some(org), None, Some(loc), None, None)
  }

  /** The two provider shapes normalise to the same record when their values
      match and the `loc` text parses to the explicit coordinates. */
  lemma ShapesAgree(ip: string, country: Option<string>, city: string, region: Option<string>, isp: string,
                    lat: real, lon: real, loc: string, fallbackIp: Option<string>, parse: string -> Option<real>)
    requires ip != "" && city != "" && isp != ""
    requires var parts := Split(loc, ',');
             |parts| == 2 && parse(parts[0]) == Some(lat) && parse(parts[1]) == Some(lon)
    ensures NormalizeGeo(Some(IpApiShape(ip, country, city, isp, lat, lon)), fallbackIp, parse)
            == NormalizeGeo(Some(IpInfoShape(ip, country, city, region, isp, loc)), fallbackIp, parse)
  {
  }

  /** The shapes agree on the published example, `loc` `"37.4,-122.1"`
      against `lat` 37.4 and `lon` -122.1, for any `Number` that reads those
      two texts as those numbers. */
  lemma ShapesAgreeOnExample(parse: string -> Option<real>, country: Option<string>)
    requires parse("37.4") == Some(37.4) && parse("-122.1") == Some(-122.1)
    ensures NormalizeGeo(Some(IpApiShape("8.8.8.8", country, "Mountain View", "Google LLC", 37.4, -122.1)), None, parse)
            == NormalizeGeo(Some(IpInfoShape("8.8.8.8", country, "Mountain View", None, "Google LLC", "37.4,-122.1")), None, parse)
  {
    var parts := ["37.4", "-122.1"];
    assert parts[1..] == ["-122.1"];
    assert Join(parts, ',') == "37.4,-122.1";
    SplitJoin(parts, ',');
    ShapesAgree("8.8.8.8", country, "Mountain View", None, "Google LLC", 37.4, -122.1, "37.4,-122.1", None, parse);
  }
}

=== FILE: file_store.dfy ===
/** The file-backed store: one in-memory document holding every user and
    every history entry, rewritten to disk after each change. The model is
    the document; each operation is a function from document to document. */
module FileStore {
  import opened Wrappers
  import opened Records
  import Seqs

  /** The JSON document `{users, history}`. */
  datatype Doc = Doc(users: seq<User>, history: seq<HistoryItem>)

  /** Some user has exactly this email. */
  predicate HasEmail(users: seq<User>, email: string) {
    exists j :: 0 <= j < |users| && users[j].email == email
  }

  /** `users[i]` is the first user whose email is exactly `email`. */
  predicate FirstMatch(users: seq<User>, email: string, i: nat) {
    && i < |users|
    && users[i].email == email
    && forall j :: 0 <= j < i ==> users[j].email != email
  }

  /** Position of the first user with exactly this email (`Array.find`). */
  function FirstWithEmail(users: seq<User>, email: string): (r: Option<nat>)
    ensures r.Some? ==> FirstMatch(users, email, r.value)
    ensures r.None? <==> !HasEmail(users, email)
    decreases |users|
  {
    if |users| == 0 then None
    else if users[0].email == email then Some(0)
    else
      match FirstWithEmail(users[1..], email)
      case None =>
        assert forall j :: 1 <= j < |users| ==> users[j] == users[1..][j - 1];
        None
      case Some(i) =>
        assert forall j :: 1 <= j < i + 1 ==> users[j] == users[1..][j - 1];
        Some(i + 1)
  }

  /** `findUserByEmail`: the first user whose email equals the argument,
      case-sensitively; nothing when there is none. */
  function FindUserByEmail(d: Doc, email: string): (r: Option<User>)
    ensures r.None? <==> !HasEmail(d.users, email)
    ensures r.Some? ==> exists i: nat :: FirstMatch(d.users, email, i) && d.users[i] == r.value
  {
    match FirstWithEmail(d.users, email)
    case None => None
    case Some(i) => Some(d.users[i])
  }

  /** A user whose email is already present stays the one found, whatever is
      appended after it and whatever the history holds. */
  lemma FindUserAppend(d: Doc, users: seq<User>, history: seq<HistoryItem>, email: string)
    requires HasEmail(d.users, email)
    requires |d.users| <= |users| && users[..|d.users|] == d.users
    ensures FindUserByEmail(Doc(users, history), email) == FindUserByEmail(d, email)
  {
    var i := FirstWithEmail(d.users, email).value;
    assert FirstMatch(users, email, i) by {
      assert users[i] == d.users[i];
      assert forall j :: 0 <= j < i ==> users[j] == d.users[j];
    }
    var k := FirstWithEmail(users, email).value;
    FirstMatchUnique(users, email, i, k);
  }

  /** There is one first match. */
  lemma FirstMatchUnique(users: seq<User>, email: string, i: nat, k: nat)
    requires FirstMatch(users, email, i) && FirstMatch(users, email, k)
    ensures i == k
  {
  }

  /** One step of seeding: insert the user unless its email is present. */
  function SeedOne(users: seq<User>, u: SeedUser, id: string): seq<User> {
    if FirstWithEmail(users, u.email).Some? then users
    else users + [User(id, u.email, u.password)]
  }

  /** After one step the seed's email is present. */
  lemma SeedOneHas(users: seq<User>, u: SeedUser, id: string)
    ensures HasEmail(SeedOne(users, u, id), u.email)
  {
    var next := SeedOne(users, u, id);
    if FirstWithEmail(users, u.email).Some? {
      var i := FirstWithEmail(users, u.email).value;
      assert next[i].email == u.email;
    } else {
      assert next[|users|].email == u.email;
    }
  }

  /** Every user from position `from` on is made from the first seed with
      its email, with that seed's id. */
  ghost predicate FromFirstSeeds(r: seq<User>, from: nat, seeds: seq<SeedUser>, ids: seq<string>)
    requires |ids| == |seeds|
  {
    forall k :: from <= k < |r| ==>
      exists i: nat :: FirstSeed(seeds, i) && r[k] == User(ids[i], seeds[i].email, seeds[i].password)
  }

  /** The seeding loop over a user list; `ids[i]` is the fresh id
      `randomUUID` would give `seeds[i]` if it is inserted. Existing users are
      kept as they are; every seed email ends up present; an inserted user
      comes from the first seed with its email, whose email was absent, so an
      email repeated in the input is inserted at most once. */
  function SeedUsers(users: seq<User>, seeds: seq<SeedUser>, ids: seq<string>): (r: seq<User>)
    requires |ids| == |seeds|
    ensures |users| <= |r| && r[..|users|] == users
    ensures forall i :: 0 <= i < |seeds| ==> HasEmail(r, seeds[i].email)
    ensures forall k :: |users| <= k < |r| ==> !HasEmail(users, r[k].email)
    ensures FromFirstSeeds(r, |users|, seeds, ids)
    ensures forall k, l :: |users| <= k < l < |r| ==> r[k].email != r[l].email
    decreases |seeds|
  {
    if |seeds| == 0 then users
    else
      var next := SeedOne(users, seeds[0], ids[0]);
      var r := SeedUsers(next, seeds[1..], ids[1..]);
      SeedUsersStep(users, seeds, ids, next, r);
      r
  }

  /** The inductive step of `SeedUsers`' contract. */
  lemma SeedUsersStep(users: seq<User>, seeds: seq<SeedUser>, ids: seq<string>, next: seq<User>, r: seq<User>)
    requires |ids| == |seeds| > 0
    requires next == SeedOne(users, seeds[0], ids[0])
    requires |next| <= |r| && r[..|next|] == next
    requires forall i :: 0 <= i < |seeds| - 1 ==> HasEmail(r, seeds[1..][i].email)
    requires forall k :: |next| <= k < |r| ==> !HasEmail(next, r[k].email)
    requires FromFirstSeeds(r, |next|, seeds[1..], ids[1..])
    requires forall k, l :: |next| <= k < l < |r| ==> r[k].email != r[l].email
    ensures |users| <= |r| && r[..|users|] == users
    ensures forall i :: 0 <= i < |seeds| ==> HasEmail(r, seeds[i].email)
    ensures forall k :: |users| <= k < |r| ==> !HasEmail(users, r[k].email)
    ensures FromFirstSeeds(r, |users|, seeds, ids)
    ensures forall k, l :: |users| <= k < l < |r| ==> r[k].email != r[l].email
  {
    assert r[..|users|] == users by { assert r[..|users|] == next[..|users|]; }
    SeedStepPresent(users, seeds, ids, next, r);
    SeedStepAbsent(users, seeds[0], ids[0], next, r);
    SeedStepFirst(users, seeds, ids, next, r);
    SeedStepDistinct(users, next, r);
  }

  /** Every seed email is present after the step: the first through `next`. */
  lemma SeedStepPresent(users: seq<User>, seeds: seq<SeedUser>, ids: seq<string>, next: seq<User>, r: seq<User>)
    requires |ids| == |seeds| > 0
    requires next == SeedOne(users, seeds[0], ids[0])
    requires |next| <= |r| && r[..|next|] == next
    requires forall i :: 0 <= i < |seeds| - 1 ==> HasEmail(r, seeds[1..][i].email)
    ensures forall i :: 0 <= i < |seeds| ==> HasEmail(r, seeds[i].email)
  {
    SeedOneHas(users, seeds[0], ids[0]);
    assert HasEmail(r, seeds[0].email) by {
      var j :| 0 <= j < |next| && next[j].email == seeds[0].email;
      assert r[j] == next[j];
    }
    forall i | 0 <= i < |seeds| ensures HasEmail(r, seeds[i].email) {
      if i > 0 { assert seeds[i] == seeds[1..][i - 1]; }
    }
  }

  /** Users appended by this step or by later steps had absent emails. */
  lemma SeedStepAbsent(users: seq<User>, u: SeedUser, id: string, next: seq<User>, r: seq<User>)
    requires next == SeedOne(users, u, id)
    requires |next| <= |r| && r[..|next|] == next
    requires forall k :: |next| <= k < |r| ==> !HasEmail(next, r[k].email)
    ensures forall k :: |users| <= k < |r| ==> !HasEmail(users, r[k].email)
  {
    forall k | |users| <= k < |r| ensures !HasEmail(users, r[k].email) {
      if k >= |next| {
        assert forall j :: 0 <= j < |users| ==> next[j] == users[j];
      } else {
        assert FirstWithEmail(users, u.email).None?;
        assert r[k] == next[k];
      }
    }
  }

  /** Each inserted user comes from the first seed with its email. */
  lemma SeedStepFirst(users: seq<User>, seeds: seq<SeedUser>, ids: seq<string>, next: seq<User>, r: seq<User>)
    requires |ids| == |seeds| > 0
    requires next == SeedOne(users, seeds[0], ids[0])
    requires |next| <= |r| && r[..|next|] == next
    requires forall k :: |next| <= k < |r| ==> !HasEmail(next, r[k].email)
    requires FromFirstSeeds(r, |next|, seeds[1..], ids[1..])
    ensures FromFirstSeeds(r, |users|, seeds, ids)
  {
    SeedOneHas(users, seeds[0], ids[0]);
    forall k | |users| <= k < |r|
      ensures exists i: nat :: FirstSeed(seeds, i) && r[k] == User(ids[i], seeds[i].email, seeds[i].password)
    {
      if k < |next| {
        assert FirstWithEmail(users, seeds[0].email).None?;
        assert next == users + [User(ids[0], seeds[0].email, seeds[0].password)];
        assert r[k] == next[k];
        assert FirstSeed(seeds, 0);
      } else {
        var i: nat :| FirstSeed(seeds[1..], i) && r[k] == User(ids[1..][i], seeds[1..][i].email, seeds[1..][i].password);
        assert seeds[1..][i] == seeds[i + 1];
        assert seeds[0].email != r[k].email;
        assert FirstSeed(seeds, i + 1) by {
          forall j | 0 <= j < i + 1 ensures seeds[j].email != seeds[i + 1].email {
            if j > 0 {
              assert seeds[j] == seeds[1..][j - 1];
            }
          }
        }
      }
    }
  }

  /** Inserted emails are pairwise distinct. */
  lemma SeedStepDistinct(users: seq<User>, next: seq<User>, r: seq<User>)
    requires |users| <= |next| <= |users| + 1
    requires |next| <= |r| && r[..|next|] == next
    requires forall k :: |next| <= k < |r| ==> !HasEmail(next, r[k].email)
    requires forall k, l :: |next| <= k < l < |r| ==> r[k].email != r[l].email
    ensures forall k, l :: |users| <= k < l < |r| ==> r[k].email != r[l].email
  {
    forall k, l | |users| <= k < l < |r| ensures r[k].email != r[l].email {
      if k < |next| && l >= |next| {
        assert r[k] == next[k];
        assert !HasEmail(next, r[l].email);
      }
    }
  }

  /** `ensureSeedUsers` on the document. */
  function EnsureSeedUsers(d: Doc, seeds: seq<SeedUser>, ids: seq<string>): (r: Doc)
    requires |ids| == |seeds|
    ensures r.history == d.history
    ensures |d.users| <= |r.users| && r.users[..|d.users|] == d.users
    ensures forall i :: 0 <= i < |seeds| ==> HasEmail(r.users, seeds[i].email)
  {
    Doc(SeedUsers(d.users, seeds, ids), d.history)
  }

  /** Seeding with emails that are all present adds nothing. */
  lemma {:induction false} SeedUsersPresent(users: seq<User>, seeds: seq<SeedUser>, ids: seq<string>)
    requires |ids| == |seeds|
    requires forall i :: 0 <= i < |seeds| ==> HasEmail(users, seeds[i].email)
    ensures SeedUsers(users, seeds, ids) == users
    decreases |seeds|
  {
    if |seeds| > 0 {
      assert SeedOne(users, seeds[0], ids[0]) == users;
      forall i | 0 <= i < |seeds| - 1 ensures HasEmail(users, seeds[1..][i].email) {
        assert seeds[1..][i] == seeds[i + 1];
      }
      SeedUsersPresent(users, seeds[1..], ids[1..]);
    }
  }

  /** Seeding twice with the same list adds nothing the second time, whatever
      fresh ids the second call would have used. */
  lemma SeedIdempotent(d: Doc, seeds: seq<SeedUser>, ids1: seq<string>, ids2: seq<string>)
    requires |ids1| == |seeds| && |ids2| == |seeds|
    ensures EnsureSeedUsers(EnsureSeedUsers(d, seeds, ids1), seeds, ids2) == EnsureSeedUsers(d, seeds, ids1)
  {
    var once := EnsureSeedUsers(d, seeds, ids1);
    SeedUsersPresent(once.users, seeds, ids2);
  }

  /** Seeding never changes who `findUserByEmail` finds for an email that was
      already present, so existing ids and passwords survive. */
  lemma SeedKeepsExisting(d: Doc, seeds: seq<SeedUser>, ids: seq<string>, email: string)
    requires |ids| == |seeds|
    requires HasEmail(d.users, email)
    ensures FindUserByEmail(EnsureSeedUsers(d, seeds, ids), email) == FindUserByEmail(d, email)
  {
    var r := EnsureSeedUsers(d, seeds, ids);
    FindUserAppend(d, r.users, r.history, email);
  }

  /** History entries ordered newest first (`createdAt` non-increasing). */
  predicate NewestFirst(s: seq<HistoryItem>) {
    forall i, j :: 0 <= i < j < |s| ==> s[i].createdAt >= s[j].createdAt
  }

  /** Inserts `x` before the first entry that is not newer than it, so that an
      entry inserted later stays ahead of equal-time entries (a stable sort). */
  function InsertByTime(x: HistoryItem, s: seq<HistoryItem>): (r: seq<HistoryItem>)
    requires NewestFirst(s)
    ensures NewestFirst(r)
    ensures multiset(r) == multiset(s) + multiset{x}
    decreases |s|
  {
    if |s| == 0 || s[0].createdAt <= x.createdAt then [x] + s
    else
      var rest := InsertByTime(x, s[1..]);
      InsertBehind(x, s, rest);
      assert s == [s[0]] + s[1..];
      [s[0]] + rest
  }

  /** The inductive step of `InsertByTime` when `x` goes behind the head:
      the head is at least as new as everything inserted after it. */
  lemma InsertBehind(x: HistoryItem, s: seq<HistoryItem>, rest: seq<HistoryItem>)
    requires |s| > 0 && s[0].createdAt > x.createdAt && NewestFirst(s)
    requires NewestFirst(rest) && multiset(rest) == multiset(s[1..]) + multiset{x}
    ensures NewestFirst([s[0]] + rest)
  {
    forall j | 0 <= j < |rest| ensures rest[j].createdAt <= s[0].createdAt {
      var y := rest[j];
      assert y in multiset(rest);
      if y != x {
        assert y in s[1..];
      }
    }
    var r := [s[0]] + rest;
    forall i, j | 0 <= i < j < |r| ensures r[i].createdAt >= r[j].createdAt {
      assert r[j] == rest[j - 1];
      if i > 0 { assert r[i] == rest[i - 1]; }
    }
  }

  /** The stable sort of `listHistory`: by `createdAt`, newest first. */
  function SortNewestFirst(s: seq<HistoryItem>): (r: seq<HistoryItem>)
    ensures NewestFirst(r)
    ensures multiset(r) == multiset(s)
    decreases |s|
  {
    if |s| == 0 then []
    else
      assert s == [s[0]] + s[1..];
      InsertByTime(s[0], SortNewestFirst(s[1..]))
  }

  /** The ownership test `h => h.userId === userId`. */
  function OwnedBy(userId: string): HistoryItem -> bool {
    (x: HistoryItem) => x.userId == userId
  }

  /** The entries owned by `userId`, in document order. */
  function Owned(h: seq<HistoryItem>, userId: string): (r: seq<HistoryItem>)
    ensures forall x :: multiset(r)[x] == if x.userId == userId then multiset(h)[x] else 0
  {
    Seqs.Filter(h, OwnedBy(userId))
  }

  /** `listHistory`: exactly the caller's entries, each as often as it is
      stored, newest first. */
  function ListHistory(d: Doc, userId: string): (r: seq<HistoryItem>)
    ensures NewestFirst(r)
    ensures forall x :: multiset(r)[x] == if x.userId == userId then multiset(d.history)[x] else 0
  {
    SortNewestFirst(Owned(d.history, userId))
  }

  /** `addHistory`: appends one entry with the given fresh id, the caller's
      user id, the ip, the data and the current instant. */
  function AddHistory(d: Doc, userId: string, ip: string, data: RawGeo, id: string, now: nat): (r: Doc)
    ensures r.users == d.users
    ensures |r.history| == |d.history| + 1 && r.history[..|d.history|] == d.history
    ensures r.history[|d.history|] == HistoryItem(id, userId, ip, data, now)
  {
    Doc(d.users, d.history + [HistoryItem(id, userId, ip, data, now)])
  }

  /** No two history entries share an id. */
  predicate UniqueIds(d: Doc) {
    forall i, j :: 0 <= i < j < |d.history| ==> d.history[i].id != d.history[j].id
  }

  /** A fresh id keeps history ids unique. */
  lemma AddHistoryKeepsIdsUnique(d: Doc, userId: string, ip: string, data: RawGeo, id: string, now: nat)
    requires UniqueIds(d)
    requires forall i :: 0 <= i < |d.history| ==> d.history[i].id != id
    ensures UniqueIds(AddHistory(d, userId, ip, data, id, now))
  {
  }

  /** After `addHistory`, the caller's listing holds the new entry in addition
      to everything it held before. */
  lemma AddHistoryListed(d: Doc, userId: string, ip: string, data: RawGeo, id: string, now: nat)
    ensures var item := HistoryItem(id, userId, ip, data, now);
            multiset(ListHistory(AddHistory(d, userId, ip, data, id, now), userId))
            == multiset(ListHistory(d, userId)) + multiset{item}
  {
    var item := HistoryItem(id, userId, ip, data, now);
    assert AddHistory(d, userId, ip, data, id, now).history == d.history + [item];
    Seqs.FilterAppend(d.history, [item], OwnedBy(userId));
    assert Seqs.Filter([item], OwnedBy(userId)) == [item];
    assert Owned(d.history + [item], userId) == Owned(d.history, userId) + [item];
  }

  /** `addHistory` for one user leaves every other user's listing as it was. */
  lemma AddHistoryOthersUnchanged(d: Doc, userId: string, ip: string, data: RawGeo, id: string, now: nat, other: string)
    requires other != userId
    ensures ListHistory(AddHistory(d, userId, ip, data, id, now), other) == ListHistory(d, other)
  {
    var item := HistoryItem(id, userId, ip, data, now);
    var d' := AddHistory(d, userId, ip, data, id, now);
    assert d'.history == d.history + [item];
    Seqs.FilterAppend(d.history, [item], OwnedBy(other));
    assert !OwnedBy(other)(item);
    assert Seqs.Filter([item], OwnedBy(other)) == [];
    assert Seqs.Filter(d'.history, OwnedBy(other)) == Seqs.Filter(d.history, OwnedBy(other)) + [];
    assert Owned(d'.history, other) == Owned(d.history, other);
  }

  /** The test `deleteHistory` keeps an entry by. */
  predicate Survives(x: HistoryItem, userId: string, ids: seq<string>) {
    x.userId != userId || x.id !in ids
  }

  /** The survival test of `deleteHistory` as a function value. */
  function Surviving(userId: string, ids: seq<string>): HistoryItem -> bool {
    (x: HistoryItem) => Survives(x, userId, ids)
  }

  /** `deleteHistory`: removes exactly the entries that belong to the caller
      and whose id is listed; the rest keep their order, and users are
      untouched. */
  function DeleteHistory(d: Doc, userId: string, ids: seq<string>): (r: Doc)
    ensures r.users == d.users
    ensures forall x :: multiset(r.history)[x] == if x.userId == userId && x.id in ids then 0 else multiset(d.history)[x]
    ensures Seqs.SubsequenceOf(r.history, d.history)
  {
    Seqs.FilterSubsequence(d.history, Surviving(userId, ids));
    Doc(d.users, Seqs.Filter(d.history, Surviving(userId, ids)))
  }

  /** Deleting with no ids changes nothing. */
  lemma DeleteNothing(d: Doc, userId: string)
    ensures DeleteHistory(d, userId, []) == d
  {
    Seqs.FilterKeepsAll(d.history, Surviving(userId, []));
  }

  /** Deletion is scoped to the caller: another user's listing is unchanged,
      even when the ids passed are that user's. */
  lemma DeleteScoped(d: Doc, userId: string, ids: seq<string>, other: string)
    requires other != userId
    ensures ListHistory(DeleteHistory(d, userId, ids), other) == ListHistory(d, other)
  {
    Seqs.FilterFilter(d.history, Surviving(userId, ids), OwnedBy(other));
  }
}

=== FILE: geo.dfy ===
/** The `/geo/lookup` route: which address to look up, whether it is private,
    which provider to ask, and what the request leaves behind. The public-IP
    service, the providers and the clock/id sources are parameters. */
module Geo {
  import opened Wrappers
  import opened Records
  import opened Strings
  import Backend

  /** What the handler reads from the request: the `ip` query parameter, the
      `x-forwarded-for` and `x-real-ip` headers and the socket's peer address. */
  datatype LookupRequest = LookupRequest(
    queryIp: Option<string>,
    forwardedFor: Option<string>,
    realIp: Option<string>,
    remoteAddress: Option<string>)

  /** The prefix of an IPv4-mapped IPv6 address. */
  const MappedPrefix := "::ffff:"

  /** `sanitizeIp`: removes one leading `::ffff:`, nothing else. */
  function SanitizeIp(ip: string): (r: string)
    ensures StartsWith(ip, MappedPrefix) ==> MappedPrefix + r == ip
    ensures !StartsWith(ip, MappedPrefix) ==> r == ip
  {
    StripPrefix(ip, MappedPrefix)
  }

  /** Only one prefix is removed: a doubly mapped address keeps the second. */
  lemma SanitizeOnce(rest: string)
    ensures SanitizeIp(MappedPrefix + MappedPrefix + rest) == MappedPrefix + rest
  {
    var s := MappedPrefix + MappedPrefix + rest;
    assert s[..|MappedPrefix|] == MappedPrefix;
    assert s[|MappedPrefix|..] == MappedPrefix + rest;
  }

  /** The first comma-separated entry of `x-forwarded-for`, trimmed. */
  function ForwardedFirst(header: string): string {
    Trim(Split(header, ',')[0])
  }

  /** No usable `x-forwarded-for` entry: header absent or first entry blank. */
  predicate NoForwarded(req: LookupRequest) {
    req.forwardedFor.None? || ForwardedFirst(req.forwardedFor.value) == ""
  }

  /** The peer address with the first `::ffff:` anywhere in it removed
      (`String.replace` with a string pattern); empty when there is none. */
  function PeerAddress(remote: Option<string>): string {
    RemoveFirst(remote.GetOr(""), MappedPrefix)
  }

  /** `getRequestedIp`: a non-empty query parameter wins, then the first
      forwarded-for entry, then `x-real-ip`, then the peer address; each is
      sanitised. The answer is absent exactly when all four are empty. */
  function GetRequestedIp(req: LookupRequest): (r: Option<string>)
    ensures Truthy(req.queryIp) ==> r == Some(SanitizeIp(req.queryIp.value))
    ensures !Truthy(req.queryIp) && !NoForwarded(req) ==> r == Some(SanitizeIp(ForwardedFirst(req.forwardedFor.value)))
    ensures !Truthy(req.queryIp) && NoForwarded(req) && Truthy(req.realIp) ==> r == Some(SanitizeIp(req.realIp.value))
    ensures !Truthy(req.queryIp) && NoForwarded(req) && !Truthy(req.realIp) && PeerAddress(req.remoteAddress) != ""
            ==> r == Some(SanitizeIp(PeerAddress(req.remoteAddress)))
    ensures r.None? <==> !Truthy(req.queryIp) && NoForwarded(req) && !Truthy(req.realIp) && PeerAddress(req.remoteAddress) == ""
  {
    var q := req.queryIp.GetOr("");
    if q != "" then Some(SanitizeIp(q))
    else
      var xf := if req.forwardedFor.Some? then ForwardedFirst(req.forwardedFor.value) else "";
      if xf != "" then Some(SanitizeIp(xf))
      else if Truthy(req.realIp) then Some(SanitizeIp(req.realIp.value))
      else
        var ra := PeerAddress(req.remoteAddress);
        if ra != "" then Some(SanitizeIp(ra)) else None
  }

  /** A non-empty query parameter decides alone: the headers and the peer
      address are not consulted. */
  lemma QueryWins(req: LookupRequest, forwardedFor: Option<string>, realIp: Option<string>, remote: Option<string>)
    requires Truthy(req.queryIp)
    ensures GetRequestedIp(req) == GetRequestedIp(LookupRequest(req.queryIp, forwardedFor, realIp, remote))
  {
  }

  /** The second forwarded-for entry is never used. */
  lemma ForwardedUsesFirstEntry(first: string, rest: string)
    requires ',' !in first
    ensures ForwardedFirst(first + "," + rest) == Trim(first)
  {
    var s := first + "," + rest;
    assert s[|first|] == ',';
    assert ',' in s;
    var i := IndexOf(s, ',');
    assert s[..|first|] == first;
    assert i == |first|;
  }

  /** `/^172\.(1[6-9]|2[0-9]|3[0-1])\./`, character by character. */
  predicate Is172Private(ip: string) {
    && |ip| >= 7
    && ip[..4] == "172."
    && ip[6] == '.'
    && ((ip[4] == '1' && '6' <= ip[5] <= '9')
        || (ip[4] == '2' && IsDigit(ip[5]))
        || (ip[4] == '3' && (ip[5] == '0' || ip[5] == '1')))
  }

  /** `isPrivateOrLocal`: the two loopback literals, and the prefixes of the
      private ranges of section 3 of RFC 1918 plus `fc`/`fd`. */
  predicate IsPrivateOrLocal(ip: string): (b: bool)
    ensures b ==> ip == "::1" || (|ip| >= 2 && (ip[0] == '1' || ip[0] == 'f'))
  {
    || ip == "::1" || ip == "127.0.0.1"
    || StartsWith(ip, "10.")
    || StartsWith(ip, "192.168.")
    || Is172Private(ip)
    || StartsWith(ip, "fc") || StartsWith(ip, "fd")
  }

  /** The address prefixes of the private and unique-local ranges. */
  const PrivatePrefixes: set<string> := {"10.", "192.168.", "fc", "fd"}

  /** The private-or-local check as ranges: a loopback literal, a listed
      prefix, or `172.N.` with N in 16..31. */
  lemma PrivateOrLocalRanges(ip: string)
    ensures IsPrivateOrLocal(ip) <==>
              || ip == "::1" || ip == "127.0.0.1"
              || (exists p :: p in PrivatePrefixes && StartsWith(ip, p))
              || (exists n :: 16 <= n <= 31 && StartsWith(ip, "172." + TwoDigits(n) + "."))
  {
    Is172PrivateMeansRange(ip);
    assert StartsWith(ip, "10.") ==> "10." in PrivatePrefixes;
    assert StartsWith(ip, "192.168.") ==> "192.168." in PrivatePrefixes;
    assert StartsWith(ip, "fc") ==> "fc" in PrivatePrefixes;
    assert StartsWith(ip, "fd") ==> "fd" in PrivatePrefixes;
  }

  /** The two decimal digits of `n`. */
  function TwoDigits(n: nat): (r: string)
    requires 10 <= n <= 99
    ensures |r| == 2 && IsDigit(r[0]) && IsDigit(r[1])
    ensures (r[0] as int - '0' as int) * 10 + (r[1] as int - '0' as int) == n
  {
    [('0' as int + n / 10) as char, ('0' as int + n % 10) as char]
  }

  /** The 172 test is exactly "starts with `172.N.` for N in 16..31". */
  lemma Is172PrivateMeansRange(ip: string)
    ensures Is172Private(ip) <==> exists n :: 16 <= n <= 31 && StartsWith(ip, "172." + TwoDigits(n) + ".")
  {
    if Is172Private(ip) {
      Is172PrivateHasRange(ip);
    }
    if exists n :: 16 <= n <= 31 && StartsWith(ip, "172." + TwoDigits(n) + ".") {
      var n :| 16 <= n <= 31 && StartsWith(ip, "172." + TwoDigits(n) + ".");
      RangeIs172Private(ip, n);
    }
  }

  /** An address the 172 test accepts starts with `172.N.`, N in 16..31. */
  lemma Is172PrivateHasRange(ip: string)
    requires Is172Private(ip)
    ensures var n := (ip[4] as int - '0' as int) * 10 + (ip[5] as int - '0' as int);
            16 <= n <= 31 && StartsWith(ip, "172." + TwoDigits(n) + ".")
  {
    var n := (ip[4] as int - '0' as int) * 10 + (ip[5] as int - '0' as int);
    assert 16 <= n <= 31;
    var p := "172." + TwoDigits(n) + ".";
    assert TwoDigits(n) == ip[4..6];
    assert ip[..7] == p;
  }

  /** An address starting with `172.N.`, N in 16..31, passes the 172 test. */
  lemma RangeIs172Private(ip: string, n: nat)
    requires 16 <= n <= 31 && StartsWith(ip, "172." + TwoDigits(n) + ".")
    ensures Is172Private(ip)
  {
    var p := "172." + TwoDigits(n) + ".";
    assert ip[..7] == p;
    assert ip[..4] == p[..4];
    assert ip[4] == p[4] && ip[5] == p[5] && ip[6] == p[6];
  }

  /** The edges of the ranges: `172.15.x`, `172.32.x` and `127.0.0.2` are
      public, `172.16.x`, `172.31.x`, `10.x`, `fd..` private. */
  lemma PrivateEdges()
    ensures !IsPrivateOrLocal("172.15.0.1") && !IsPrivateOrLocal("172.32.0.1") && !IsPrivateOrLocal("127.0.0.2")
    ensures IsPrivateOrLocal("172.16.0.1") && IsPrivateOrLocal("172.31.255.255")
    ensures IsPrivateOrLocal("10.1.2.3") && IsPrivateOrLocal("fd00::1") && !IsPrivateOrLocal("FD00::1")
  {
    PublicAddress("172.15.0.1");
    PublicAddress("172.32.0.1");
    PublicAddress("127.0.0.2");
    PrivateExamples();
  }

  /** The private side of the edges. */
  lemma PrivateExamples()
    ensures IsPrivateOrLocal("172.16.0.1") && IsPrivateOrLocal("172.31.255.255")
    ensures IsPrivateOrLocal("10.1.2.3") && IsPrivateOrLocal("fd00::1") && !IsPrivateOrLocal("FD00::1")
  {
    assert "172.16.0.1"[..4] == "172.";
    assert "172.31.255.255"[..4] == "172.";
    assert "10.1.2.3"[..3] == "10.";
    assert "fd00::1"[..2] == "fd";
    assert "FD00::1"[0] == 'F';
  }

  /** A dotted address starting with `1` and not in the listed ranges is
      public; used for the edge examples. */
  lemma PublicAddress(ip: string)
    requires |ip| >= 7 && ip[0] == '1' && ip != "127.0.0.1"
    requires ip[1] != '0' && ip[1] != '9'
    requires !Is172Private(ip)
    ensures !IsPrivateOrLocal(ip)
  {
    assert ip != "::1" by { assert ip[0] != "::1"[0]; }
    assert !StartsWith(ip, "10.") by { assert ip[1] != "10."[1]; }
    assert !StartsWith(ip, "192.168.") by { assert ip[1] != "192.168."[1]; }
    assert !StartsWith(ip, "fc") by { assert ip[0] != 'f'; }
    assert !StartsWith(ip, "fd") by { assert ip[0] != 'f'; }
  }

  /** The two upstream providers. */
  datatype Provider = IpInfo | IpApi

  /** The provider is chosen only by whether an API key is configured. */
  function ProviderFor(apiKey: Option<string>): (p: Provider)
    ensures p == IpInfo <==> Truthy(apiKey)
  {
    if Truthy(apiKey) then IpInfo else IpApi
  }

  /** The one URL `lookupIp` fetches. */
  function ProviderUrl(ip: string, apiKey: Option<string>): (u: string)
    ensures ProviderFor(apiKey) == IpInfo ==> StartsWith(u, "https://ipinfo.io/")
    ensures ProviderFor(apiKey) == IpApi ==> StartsWith(u, "http://ip-api.com/json/")
    ensures ProviderFor(apiKey) == IpInfo ==> u == "https://ipinfo.io/" + ip + "?token=" + apiKey.value
    ensures ProviderFor(apiKey) == IpApi ==> u == "http://ip-api.com/json/" + ip
  {
    match ProviderFor(apiKey)
    case IpInfo =>
      var u := "https://ipinfo.io/" + ip + "?token=" + apiKey.value;
      assert u[..|"https://ipinfo.io/"|] == "https://ipinfo.io/";
      u
    case IpApi =>
      var u := "http://ip-api.com/json/" + ip;
      assert u[..|"http://ip-api.com/json/"|] == "http://ip-api.com/json/";
      u
  }

  /** The URL names the address: with one key, two addresses never share a
      lookup URL. */
  lemma ProviderUrlNamesAddress(ip1: string, ip2: string, apiKey: Option<string>)
    requires ProviderUrl(ip1, apiKey) == ProviderUrl(ip2, apiKey)
    ensures ip1 == ip2
  {
    var u := ProviderUrl(ip1, apiKey);
    match ProviderFor(apiKey)
    case IpInfo =>
      var h, t := "https://ipinfo.io/", "?token=" + apiKey.value;
      assert u == h + ip1 + t && u == h + ip2 + t;
      assert ip1 == u[|h|..|u| - |t|];
      assert ip2 == u[|h|..|u| - |t|];
    case IpApi =>
      var h := "http://ip-api.com/json/";
      assert ip1 == u[|h|..];
      assert ip2 == u[|h|..];
  }

  /** What a `fetch` gives back: a thrown network/parse error, or a response
      with its `ok` flag and parsed body. */
  datatype HttpReply = NetworkError(message: string) | Response(ok: bool, body: RawGeo)

  /** The message `lookupIp` throws on a non-OK response. */
  const FailedLookup := "Failed IP lookup"

  /** `lookupIp`: one fetch of the chosen provider; a non-OK answer is an
      error, with no retry and no fallback to the other provider. */
  function LookupIp(ip: string, apiKey: Option<string>, fetch: string -> HttpReply): (r: Result<RawGeo, string>)
    ensures var reply := fetch(ProviderUrl(ip, apiKey));
            && (r.Success? <==> reply.Response? && reply.ok)
            && (r.Success? ==> r.value == reply.body)
            && (reply.Response? && !reply.ok ==> r == Failure(FailedLookup))
            && (reply.NetworkError? ==> r == Failure(reply.message))
  {
    match fetch(ProviderUrl(ip, apiKey))
    case NetworkError(m) => Failure(m)
    case Response(ok, body) => if ok then Success(body) else Failure(FailedLookup)
  }

  /** Only the chosen provider's answer matters: two fetchers that agree on
      its URL give the same lookup result. */
  lemma NoFallback(ip: string, apiKey: Option<string>, f1: string -> HttpReply, f2: string -> HttpReply)
    requires f1(ProviderUrl(ip, apiKey)) == f2(ProviderUrl(ip, apiKey))
    ensures LookupIp(ip, apiKey, f1) == LookupIp(ip, apiKey, f2)
  {
  }

  /** What the public-IP service (ipify) gives: nothing (network or parse
      error), or a response with its `ok` flag and its `ip` field. */
  datatype PublicIpReply = PublicIpUnavailable | PublicIpAnswer(ok: bool, ip: Option<string>)

  /** The address actually looked up: a private target is replaced by the
      public IP only when the service answers OK with a truthy `ip`. */
  function FinalTarget(target: string, publicIp: PublicIpReply): (r: string)
    ensures r != target ==> IsPrivateOrLocal(target) && publicIp.PublicIpAnswer? && publicIp.ok
                            && Truthy(publicIp.ip) && r == publicIp.ip.value
    ensures !IsPrivateOrLocal(target) ==> r == target
    ensures IsPrivateOrLocal(target) && publicIp.PublicIpAnswer? && publicIp.ok && Truthy(publicIp.ip)
            ==> r == publicIp.ip.value
  {
    if IsPrivateOrLocal(target) && publicIp.PublicIpAnswer? && publicIp.ok && Truthy(publicIp.ip)
    then publicIp.ip.value
    else target
  }

  /** An outside service the handler contacts. */
  datatype Call = PublicIpCall | ProviderCall(url: string)

  /** The JSON body of the response. */
  datatype LookupBody = IpRequired | Located(ip: string, data: RawGeo) | LookupFailed(message: string)

  /** Status, body, the outside calls in order, and the store afterwards. */
  datatype LookupOutcome = LookupOutcome(status: nat, body: LookupBody, calls: seq<Call>, store: Backend.Store)

  /** The message of the 500 response: `e.message || 'Lookup failed'`. */
  function ErrorMessage(m: string): (r: string)
    ensures r != ""
    ensures m != "" ==> r == m
    ensures m == "" ==> r == "Lookup failed"
  {
    if m != "" then m else "Lookup failed"
  }

  /** The `/lookup` handler. `user` is what optional authentication attached;
      `id` and `now` are the fresh id and instant a history write would use. */
  function Lookup(req: LookupRequest, user: Option<AuthUser>, apiKey: Option<string>,
                  publicIp: PublicIpReply, fetch: string -> HttpReply,
                  store: Backend.Store, id: string, now: nat): (o: LookupOutcome)
    ensures o.status == 400 <==> !Truthy(GetRequestedIp(req))
    ensures o.status == 400 ==> o.body == IpRequired && o.calls == [] && o.store == store
    ensures o.status != 400 ==>
              var target := GetRequestedIp(req).value;
              var ip := FinalTarget(target, publicIp);
              && o.calls == (if IsPrivateOrLocal(target) then [PublicIpCall] else []) + [ProviderCall(ProviderUrl(ip, apiKey))]
              && (o.status == 200 <==> LookupIp(ip, apiKey, fetch).Success?)
              && (o.status == 200 ==> o.body == Located(ip, LookupIp(ip, apiKey, fetch).value))
              && (o.status == 500 ==> o.body == LookupFailed(ErrorMessage(LookupIp(ip, apiKey, fetch).error)))
    ensures o.status in {200, 400, 500}
    ensures o.status == 500 ==> o.body.LookupFailed? && o.body.message != "" && o.store == store
    ensures o.status == 200 && user.Some? ==>
              o.store == Backend.AddHistory(store, user.value.id, o.body.ip, o.body.data, id, now)
    ensures user.None? ==> o.store == store
  {
    var target := GetRequestedIp(req);
    if !Truthy(target) then LookupOutcome(400, IpRequired, [], store)
    else
      var probe := if IsPrivateOrLocal(target.value) then [PublicIpCall] else [];
      var ip := FinalTarget(target.value, publicIp);
      var calls := probe + [ProviderCall(ProviderUrl(ip, apiKey))];
      match LookupIp(ip, apiKey, fetch)
      case Failure(m) => LookupOutcome(500, LookupFailed(ErrorMessage(m)), calls, store)
      case Success(data) =>
        var store' := if user.Some? then Backend.AddHistory(store, user.value.id, ip, data, id, now) else store;
        LookupOutcome(200, Located(ip, data), calls, store')
  }

  /** An authenticated, successful lookup is in the caller's history, with the
      address and data the response echoes. */
  lemma LookupRecordsHistory(req: LookupRequest, user: AuthUser, apiKey: Option<string>,
                             publicIp: PublicIpReply, fetch: string -> HttpReply,
                             store: Backend.Store, id: string, now: nat)
    requires Lookup(req, Some(user), apiKey, publicIp, fetch, store, id, now).status == 200
    ensures var o := Lookup(req, Some(user), apiKey, publicIp, fetch, store, id, now);
            HistoryItem(id, user.id, o.body.ip, o.body.data, now) in Backend.ListHistory(o.store, user.id)
  {
    var o := Lookup(req, Some(user), apiKey, publicIp, fetch, store, id, now);
  }

  /** A loopback target asks the public-IP service before the provider; a
      public target goes straight to the provider. */
  lemma SubstitutionProbe(req: LookupRequest, user: Option<AuthUser>, apiKey: Option<string>,
                          publicIp: PublicIpReply, fetch: string -> HttpReply,
                          store: Backend.Store, id: string, now: nat)
    requires Truthy(GetRequestedIp(req))
    ensures var o := Lookup(req, user, apiKey, publicIp, fetch, store, id, now);
            && |o.calls| >= 1 && o.calls[|o.calls| - 1].ProviderCall?
            && (PublicIpCall in o.calls <==> IsPrivateOrLocal(GetRequestedIp(req).value))
  {
  }
}

=== FILE: home.dfy ===
/** The single-page client's home view: input validation, the `loc`
    parser, the locally kept search history and its selection. `Number` is a
    parameter `parse` (nothing where it gives `NaN`); the answer of the
    browser-side geolocation request is a parameter of the search. */
module Home {
  import opened Wrappers
  import opened Strings
  import Seqs
  import IpText
  import Selection
  import Dashboard
  import Records

  /** `validateIp`: the dotted-quad pattern, or a non-empty run of hex
      digits and colons. */
  predicate ValidateIp(v: string): (b: bool)
    ensures b ==> |v| > 0 && forall i :: 0 <= i < |v| ==>
                                 IsDigit(v[i]) || v[i] == '.' || v[i] == ':' || 'a' <= v[i] <= 'f' || 'A' <= v[i] <= 'F'
  {
    IpText.IsDottedQuad(v) || IpText.IsHexColon(v)
  }

  /** What `validateIp` accepts: four octet texts joined by dots, or a hex
      and colon run. */
  lemma ValidateIpShape(v: string)
    ensures ValidateIp(v) <==>
              (exists a, b, c, d :: IpText.QuadOf(v, a, b, c, d)) || IpText.IsHexColon(v)
  {
    IpText.DottedQuadShape(v);
  }

  /** A parsed `loc`. `lng` is absent when the text has no comma, as the
      destructuring `[lat, lng]` leaves it `undefined`. */
  datatype Loc = Loc(lat: real, lng: Option<real>)

  /** `parseLoc` as written: nothing for an empty or missing text; otherwise
      the first comma part must parse, and the second must parse when there
      is one; further parts are ignored. */
  function ParseLoc(loc: Option<string>, parse: string -> Option<real>): (r: Option<Loc>)
    ensures !Truthy(loc) ==> r.None?
    ensures Truthy(loc) ==>
              var parts := Split(loc.value, ',');
              && (r.Some? <==> parse(parts[0]).Some? && (|parts| >= 2 ==> parse(parts[1]).Some?))
              && (r.Some? ==> Some(r.value.lat) == parse(parts[0]))
              && (r.Some? ==> (r.value.lng.Some? <==> |parts| >= 2))
              && (r.Some? && |parts| >= 2 ==> r.value.lng == parse(parts[1]))
  {
    if !Truthy(loc) then None
    else
      var parts := Split(loc.value, ',');
      var lat := parse(parts[0]);
      if lat.None? then None
      else if |parts| < 2 then Some(Loc(lat.value, None))
      else if parse(parts[1]).None? then None
      else Some(Loc(lat.value, parse(parts[1])))
  }

  /** A map position: both coordinates. */
  datatype Position = Position(lat: real, lng: real)

  /** `parseLoc` as evidently intended: a position only when the text has a
      second part and both coordinates parse. */
  function ParseLocStrict(loc: Option<string>, parse: string -> Option<real>): (r: Option<Position>)
    ensures r.Some? <==> Truthy(loc) && |Split(loc.value, ',')| >= 2
                         && parse(Split(loc.value, ',')[0]).Some? && parse(Split(loc.value, ',')[1]).Some?
    ensures r.Some? ==> Some(r.value.lat) == parse(Split(loc.value, ',')[0])
                        && Some(r.value.lng) == parse(Split(loc.value, ',')[1])
  {
    if !Truthy(loc) then None
    else
      var parts := Split(loc.value, ',');
      if |parts| < 2 then None
      else match (parse(parts[0]), parse(parts[1]))
        case (Some(a), Some(b)) => Some(Position(a, b))
        case _ => None
  }

  /** The strict parser accepts exactly what the written one accepts with
      both coordinates present, and gives the same numbers. */
  lemma StrictRefinesAsWritten(loc: Option<string>, parse: string -> Option<real>)
    ensures ParseLocStrict(loc, parse).Some? <==>
              ParseLoc(loc, parse).Some? && ParseLoc(loc, parse).value.lng.Some?
    ensures ParseLocStrict(loc, parse).Some? ==>
              var p := ParseLocStrict(loc, parse).value;
              ParseLoc(loc, parse) == Some(Loc(p.lat, Some(p.lng)))
  {
  }

  /** A `loc` without a comma whose text parses yields a coordinate pair
      with no longitude, where the strict parser yields nothing. */
  lemma OnePartLoc(t: string, parse: string -> Option<real>)
    requires t != "" && ',' !in t && parse(t).Some?
    ensures ParseLoc(Some(t), parse) == Some(Loc(parse(t).value, None))
    ensures ParseLocStrict(Some(t), parse).None?
  {
    assert Join([t], ',') == t;
    SplitJoin([t], ',');
  }

  /** Such texts exist: `"37.4"`, read by `Number` as 37.4. */
  lemma OnePartLocExample(parse: string -> Option<real>)
    requires parse("37.4") == Some(37.4)
    ensures ParseLoc(Some("37.4"), parse) == Some(Loc(37.4, None))
  {
    OnePartLoc("37.4", parse);
  }

  /** On a two-part `loc` the strict parser gives the same coordinates as
      the dashboard's normalisation of a keyed-provider answer. */
  lemma StrictAgreesWithDashboard(raw: Records.RawGeo, parse: string -> Option<real>)
    requires raw.lat.None? && raw.lon.None? && Truthy(raw.loc)
    requires |Split(raw.loc.value, ',')| == 2
    ensures ParseLocStrict(raw.loc, parse).Some? ==>
              var p := ParseLocStrict(raw.loc, parse).value;
              Dashboard.Coordinates(raw, parse) == (Some(p.lat), Some(p.lng))
    ensures ParseLocStrict(raw.loc, parse).None? ==> Dashboard.Coordinates(raw, parse) == (None, None)
  {
  }

  /** One entry of the local history. `timestamp` is the search instant. */
  datatype SearchItem = SearchItem(id: string, ip: string, timestamp: nat)

  /** The history keeps at most this many entries. */
  const HistoryCap: nat := 50

  /** `[item, ...h].slice(0, 50)`. */
  function Prepend(h: seq<SearchItem>, item: SearchItem): (r: seq<SearchItem>)
    ensures |r| == if |h| < HistoryCap then |h| + 1 else HistoryCap
    ensures r[0] == item
    ensures r[1..] == h[..|r| - 1]
  {
    var all := [item] + h;
    assert all[1..] == h;
    all[..if |h| < HistoryCap then |h| + 1 else HistoryCap]
  }

  /** The first `HistoryCap` elements. */
  function Latest(s: seq<SearchItem>): seq<SearchItem> {
    s[..if |s| < HistoryCap then |s| else HistoryCap]
  }

  /** The sequence read backwards. */
  function Reverse(s: seq<SearchItem>): (r: seq<SearchItem>)
    ensures |r| == |s|
    ensures forall i :: 0 <= i < |s| ==> r[i] == s[|s| - 1 - i]
  {
    if s == [] then [] else Reverse(s[1..]) + [s[0]]
  }

  /** Successive successful searches, oldest first. */
  function SearchAll(h: seq<SearchItem>, items: seq<SearchItem>): seq<SearchItem>
    decreases |items|
  {
    if items == [] then h else SearchAll(Prepend(h, items[0]), items[1..])
  }

  /** Capping after prepending equals capping the whole. */
  lemma LatestOfPrefix(a: seq<SearchItem>, b: seq<SearchItem>)
    ensures Latest(a + Latest(b)) == Latest(a + b)
  {
  }

  /** After any run of searches from a history within the cap, the history
      is the newest `HistoryCap` entries, newest first. */
  lemma {:induction false} SearchAllKeepsLatest(h: seq<SearchItem>, items: seq<SearchItem>)
    requires |h| <= HistoryCap
    ensures SearchAll(h, items) == Latest(Reverse(items) + h)
    decreases |items|
  {
    if items == [] {
      assert Reverse(items) + h == h;
    } else {
      var rest := items[1..];
      var h1 := Prepend(h, items[0]);
      SearchAllKeepsLatest(h1, rest);
      assert h1 == Latest([items[0]] + h);
      assert Reverse(items) == Reverse(rest) + [items[0]];
      LatestOfPrefix(Reverse(rest), [items[0]] + h);
      assert Reverse(rest) + ([items[0]] + h) == Reverse(items) + h;
    }
  }

  /** The fields of the browser-side geolocation answer the page uses. */
  datatype GeoInfo = GeoInfo(ip: string, loc: Option<string>)

  /** The page's state. `target` is where the map is centred. */
  datatype HomeState = HomeState(
    geo: Option<GeoInfo>,
    inputIp: string,
    error: Option<string>,
    history: seq<SearchItem>,
    selected: set<string>,
    target: Option<Position>)

  const InvalidIp := "Invalid IP address"
  const LookupFailed := "Lookup failed"

  /** `handleSearch`. An invalid input only sets the error; otherwise a
      failed lookup (`fetched` is nothing) only sets its error, and an answer
      becomes the shown record, moves the map when its `loc` gives a
      position, is prepended to the history under `id` at `now`, and clears
      the input and the error. */
  function HandleSearch(st: HomeState, fetched: Option<GeoInfo>, id: string, now: nat, parse: string -> Option<real>): (r: HomeState)
    ensures !ValidateIp(st.inputIp) ==> r == st.(error := Some(InvalidIp))
    ensures ValidateIp(st.inputIp) && fetched.None? ==> r == st.(error := Some(LookupFailed))
    ensures ValidateIp(st.inputIp) && fetched.Some? ==>
              && r.geo == fetched && r.error.None? && r.inputIp == ""
              && r.selected == st.selected
              && |r.history| == (if |st.history| < HistoryCap then |st.history| + 1 else HistoryCap)
              && r.history[0] == SearchItem(id, fetched.value.ip, now)
              && r.history[1..] == st.history[..|r.history| - 1]
              && (ParseLocStrict(fetched.value.loc, parse).Some? ==> r.target == ParseLocStrict(fetched.value.loc, parse))
              && (ParseLocStrict(fetched.value.loc, parse).None? ==> r.target == st.target)
  {
    if !ValidateIp(st.inputIp) then st.(error := Some(InvalidIp))
    else match fetched
      case None => st.(error := Some(LookupFailed))
      case Some(g) =>
        var pos := ParseLocStrict(g.loc, parse);
        st.(geo := Some(g),
            target := if pos.Some? then pos else st.target,
            history := Prepend(st.history, SearchItem(id, g.ip, now)),
            inputIp := "",
            error := None)
  }

  /** A successful search from a history within the cap is the run of one
      search. */
  lemma SearchIsPrepend(st: HomeState, g: GeoInfo, id: string, now: nat, parse: string -> Option<real>)
    requires ValidateIp(st.inputIp) && |st.history| <= HistoryCap
    ensures HandleSearch(st, Some(g), id, now, parse).history == SearchAll(st.history, [SearchItem(id, g.ip, now)])
  {
    var item := SearchItem(id, g.ip, now);
    assert [item][1..] == [];
  }

  /** `toggleSelect`. */
  function ToggleSelect(st: HomeState, id: string): (r: HomeState)
    ensures r == st.(selected := r.selected)
    ensures id in r.selected <==> id !in st.selected
    ensures forall x :: x != id ==> (x in r.selected <==> x in st.selected)
  {
    st.(selected := Selection.Toggle(st.selected, id))
  }

  /** The filter `!selectedIds.has(i.id)`. */
  function Unselected(sel: set<string>): SearchItem -> bool {
    (item: SearchItem) => item.id !in sel
  }

  /** `deleteSelected`: nothing happens with an empty selection; otherwise
      the entries whose id is selected are dropped, the others kept in order,
      and the selection cleared. */
  function DeleteSelected(st: HomeState): (r: HomeState)
    ensures st.selected == {} ==> r == st
    ensures st.selected != {} ==> r == st.(history := r.history, selected := {})
    ensures st.selected != {} ==>
              && (forall x :: x in r.history <==> x in st.history && x.id !in st.selected)
              && (forall x :: multiset(r.history)[x] == if x.id in st.selected then 0 else multiset(st.history)[x])
    ensures st.selected != {} ==> r.history == Seqs.Filter(st.history, Unselected(st.selected))
  {
    if |st.selected| == 0 then st
    else st.(history := Seqs.Filter(st.history, Unselected(st.selected)), selected := {})
  }

  /** Deleting after selecting one id on a clear selection removes exactly
      the entries with that id and keeps the rest in order. */
  lemma DeleteOneSelected(st: HomeState, id: string)
    requires st.selected == {}
    ensures DeleteSelected(ToggleSelect(st, id)).history == Seqs.Filter(st.history, Unselected({id}))
    ensures DeleteSelected(ToggleSelect(st, id)).selected == {}
  {
    assert ToggleSelect(st, id).selected == {id};
  }

  /** Deleting keeps the cap and the order of what remains: a history of
      entries none of which is selected is unchanged. */
  lemma {:induction false} DeleteKeepsUnselected(st: HomeState)
    requires st.selected != {}
    requires forall i :: 0 <= i < |st.history| ==> st.history[i].id !in st.selected
    ensures DeleteSelected(st) == st.(selected := {})
  {
    Seqs.FilterKeepsAll(st.history, Unselected(st.selected));
  }
}

=== FILE: ip_text.dfy ===
/** The client-side address checks. The dashboard's `isValidIp` and the home
    page's `validateIp` share the dotted-quad pattern
    `^(\d{1,3}\.){3}\d{1,3}$`. */
module IpText {
  import opened Strings

  /** One to three ASCII digits. */
  predicate IsOctetText(p: string) {
    1 <= |p| <= 3 && forall i :: 0 <= i < |p| ==> IsDigit(p[i])
  }

  /** The dotted-quad pattern: exactly four dot-separated runs of 1-3 digits.
      No numeric bound is checked. */
  predicate IsDottedQuad(v: string): (b: bool)
    ensures b ==> 7 <= |v| <= 15 && DigitsAndDots(v)
  {
    var parts := Split(v, '.');
    var ok := |parts| == 4 && forall i :: 0 <= i < 4 ==> IsOctetText(parts[i]);
    if ok then QuadText(v, parts); ok else ok
  }

  /** Only ASCII digits and dots. */
  predicate DigitsAndDots(v: string) {
    forall i :: 0 <= i < |v| ==> IsDigit(v[i]) || v[i] == '.'
  }

  /** Digits and dots stay digits and dots when joined. */
  lemma DigitsAndDotsJoin(a: string, b: string)
    requires DigitsAndDots(a) && DigitsAndDots(b)
    ensures DigitsAndDots(a + "." + b)
  {
    var v := a + "." + b;
    forall i | 0 <= i < |v| ensures IsDigit(v[i]) || v[i] == '.' {
      if i < |a| { assert v[i] == a[i]; }
      else if i > |a| { assert v[i] == b[i - |a| - 1]; }
    }
  }

  /** Four digit runs joined by dots make 7 to 15 digits and dots. */
  lemma QuadText(v: string, ps: seq<string>)
    requires Join(ps, '.') == v && |ps| == 4 && forall i :: 0 <= i < 4 ==> IsOctetText(ps[i])
    ensures 7 <= |v| <= 15 && DigitsAndDots(v)
  {
    var a, b, c, d := ps[0], ps[1], ps[2], ps[3];
    assert ps == [a, b, c, d];
    JoinFour(a, b, c, d);
    QuadFour(a, b, c, d);
  }

  /** Four digit runs joined by dots are 7 to 15 digits and dots. */
  lemma QuadFour(a: string, b: string, c: string, d: string)
    requires IsOctetText(a) && IsOctetText(b) && IsOctetText(c) && IsOctetText(d)
    ensures var v := a + "." + b + "." + c + "." + d; 7 <= |v| <= 15 && DigitsAndDots(v)
  {
    DigitsAndDotsJoin(a, b);
    DigitsAndDotsJoin(a + "." + b, c);
    DigitsAndDotsJoin(a + "." + b + "." + c, d);
  }

  /** `v` is the four digit runs `a`, `b`, `c`, `d` joined by dots. */
  predicate QuadOf(v: string, a: string, b: string, c: string, d: string) {
    && IsOctetText(a) && IsOctetText(b) && IsOctetText(c) && IsOctetText(d)
    && v == a + "." + b + "." + c + "." + d
  }

  /** Joining four parts with dots. */
  lemma JoinFour(a: string, b: string, c: string, d: string)
    ensures Join([a, b, c, d], '.') == a + "." + b + "." + c + "." + d
  {
    assert [a, b, c, d][1..] == [b, c, d];
    assert [b, c, d][1..] == [c, d];
    assert [c, d][1..] == [d];
    assert Join([d], '.') == d;
    assert Join([c, d], '.') == c + "." + d;
    assert Join([b, c, d], '.') == b + "." + c + "." + d;
  }

  /** The pattern accepts exactly the strings built from four digit runs and
      three dots. */
  lemma DottedQuadShape(v: string)
    ensures IsDottedQuad(v) <==> exists a, b, c, d :: QuadOf(v, a, b, c, d)
  {
    if IsDottedQuad(v) {
      DottedQuadSplits(v);
    }
    if exists a, b, c, d :: QuadOf(v, a, b, c, d) {
      var a, b, c, d :| QuadOf(v, a, b, c, d);
      QuadIsDotted(a, b, c, d);
    }
  }

  /** An accepted string is its four parts joined by dots. */
  lemma DottedQuadSplits(v: string)
    requires IsDottedQuad(v)
    ensures var ps := Split(v, '.'); QuadOf(v, ps[0], ps[1], ps[2], ps[3])
  {
    var ps := Split(v, '.');
    assert ps == [ps[0], ps[1], ps[2], ps[3]];
    JoinFour(ps[0], ps[1], ps[2], ps[3]);
  }

  /** Four digit runs joined by dots are accepted. */
  lemma QuadIsDotted(a: string, b: string, c: string, d: string)
    requires IsOctetText(a) && IsOctetText(b) && IsOctetText(c) && IsOctetText(d)
    ensures Split(a + "." + b + "." + c + "." + d, '.') == [a, b, c, d]
    ensures IsDottedQuad(a + "." + b + "." + c + "." + d)
  {
    JoinFour(a, b, c, d);
    NoDotInOctet(a);
    NoDotInOctet(b);
    NoDotInOctet(c);
    NoDotInOctet(d);
    SplitJoin([a, b, c, d], '.');
  }

  /** Digit runs hold no dot. */
  lemma NoDotInOctet(p: string)
    requires IsOctetText(p)
    ensures '.' !in p
  {
  }

  /** The decimal value of a digit run. */
  function DecimalValue(p: string): nat
    requires forall i :: 0 <= i < |p| ==> IsDigit(p[i])
  {
    if |p| == 0 then 0
    else
      assert IsDigit(p[|p| - 1]);
      10 * DecimalValue(p[..|p| - 1]) + (p[|p| - 1] as int - '0' as int)
  }

  /** The check the dialog text describes ("only numbers 0-255 in each
      octet"): the dotted-quad pattern and every octet at most 255. */
  predicate IsDottedQuadInRange(v: string) {
    IsDottedQuad(v) && var parts := Split(v, '.'); forall i :: 0 <= i < 4 ==> DecimalValue(parts[i]) <= 255
  }

  /** Four digit runs of value at most 255 each. */
  predicate InRangeQuadOf(v: string, a: string, b: string, c: string, d: string) {
    QuadOf(v, a, b, c, d) && DecimalValue(a) <= 255 && DecimalValue(b) <= 255 && DecimalValue(c) <= 255 && DecimalValue(d) <= 255
  }

  /** The in-range check accepts exactly the addresses of four digit runs of
      value at most 255 each, joined by dots. */
  lemma InRangeOctets(v: string)
    ensures IsDottedQuadInRange(v) <==> exists a, b, c, d :: InRangeQuadOf(v, a, b, c, d)
  {
    if IsDottedQuadInRange(v) {
      InRangeSplits(v);
    }
    if exists a, b, c, d :: InRangeQuadOf(v, a, b, c, d) {
      var a, b, c, d :| InRangeQuadOf(v, a, b, c, d);
      InRangeAccepted(v, a, b, c, d);
    }
  }

  /** Four digit runs of value at most 255 joined by dots pass the in-range
      check. */
  lemma InRangeAccepted(v: string, a: string, b: string, c: string, d: string)
    requires InRangeQuadOf(v, a, b, c, d)
    ensures IsDottedQuadInRange(v)
  {
    QuadIsDotted(a, b, c, d);
    var ps := Split(v, '.');
    assert ps == [a, b, c, d];
    assert forall i :: 0 <= i < 4 ==> DecimalValue(ps[i]) <= 255;
  }

  /** An address the in-range check accepts is its four parts joined by dots. */
  lemma InRangeSplits(v: string)
    requires IsDottedQuadInRange(v)
    ensures var ps := Split(v, '.'); InRangeQuadOf(v, ps[0], ps[1], ps[2], ps[3])
  {
    DottedQuadSplits(v);
  }

  /** The pattern as written accepts a quad whose first octet is above 255,
      which the in-range check rejects. */
  lemma PatternAcceptsOutOfRange(a: string, b: string, c: string, d: string)
    requires IsOctetText(a) && IsOctetText(b) && IsOctetText(c) && IsOctetText(d)
    requires DecimalValue(a) > 255
    ensures var v := a + "." + b + "." + c + "." + d;
            IsDottedQuad(v) && !IsDottedQuadInRange(v)
  {
    QuadIsDotted(a, b, c, d);
  }

  /** Such octets exist: `999`, so `999.1.1.1` passes the pattern. */
  lemma OutOfRangeWitness()
    ensures IsOctetText("999") && DecimalValue("999") == 999 && IsOctetText("1")
  {
    assert "999"[..2] == "99" && "99"[..1] == "9" && "9"[..0] == "";
  }

  /** `/^[a-fA-F0-9:]+$/`: a non-empty run of hex digits and colons. */
  predicate IsHexColon(v: string) {
    |v| > 0 && forall i :: 0 <= i < |v| ==> IsDigit(v[i]) || 'a' <= v[i] <= 'f' || 'A' <= v[i] <= 'F' || v[i] == ':'
  }
}

=== FILE: kv_store.dfy ===
/** The key-value store (Redis): one key per user (`user:email:<email>`), one
    key per history entry (`history:<id>`) and one list of entry ids per user
    (`history:list:<userId>`). The model gives each family its own map. The
    entry and list families overlap: `history:` is a prefix of
    `history:list:`, so the entry key of an id `list:<u>` is user `u`'s list
    key. Ids the store creates are fresh UUIDs and never take that form; an
    id chosen by a client reaches a key only through the `DEL` of
    `deleteHistory`, which therefore deletes the list `ListKey(u)` names. */
module KvStore {
  import opened Wrappers
  import opened Records
  import Seqs

  datatype Kv = Kv(users: map<string, User>, items: map<string, HistoryItem>, lists: map<string, seq<string>>)

  /** `LRANGE history:list:<userId> 0 100` stops at index 100 inclusive. */
  const ListStop: nat := 100

  /** The id list of a user; Redis treats a missing list as empty. */
  function Index(kv: Kv, userId: string): seq<string> {
    if userId in kv.lists then kv.lists[userId] else []
  }

  /** `findUserByEmail`: the user stored under the email key, if any. */
  function FindUserByEmail(kv: Kv, email: string): (r: Option<User>)
    ensures r.Some? <==> email in kv.users
    ensures r.Some? ==> r.value == kv.users[email]
  {
    if email in kv.users then Some(kv.users[email]) else None
  }

  /** The seeding loop: `seeds[i]` is stored under its email, with id
      `ids[i]`, unless that key already exists. Existing keys keep their
      users; every seed email ends up stored; a new key holds the user made
      from the first seed with that email. */
  function SeedUsers(users: map<string, User>, seeds: seq<SeedUser>, ids: seq<string>): (r: map<string, User>)
    requires |ids| == |seeds|
    ensures forall e :: e in users ==> e in r && r[e] == users[e]
    ensures forall i :: 0 <= i < |seeds| ==> seeds[i].email in r
    ensures forall e :: e in r && e !in users ==>
              exists i: nat :: FirstSeed(seeds, i) && seeds[i].email == e && r[e] == User(ids[i], e, seeds[i].password)
    ensures forall e :: e in r ==> e in users || exists i :: 0 <= i < |seeds| && seeds[i].email == e
    decreases |seeds|
  {
    if |seeds| == 0 then users
    else
      var next := SeedFirst(users, seeds[0], ids[0]);
      var r := SeedUsers(next, seeds[1..], ids[1..]);
      SeedUsersStep(users, seeds, ids, r);
      r
  }

  /** The map after the first seed of the loop. */
  function SeedFirst(users: map<string, User>, u: SeedUser, id: string): map<string, User> {
    if u.email in users then users else users[u.email := User(id, u.email, u.password)]
  }

  /** The inductive step of `SeedUsers`: what seeding the rest promises
      from the updated map carries over to the whole seed list. */
  lemma SeedUsersStep(users: map<string, User>, seeds: seq<SeedUser>, ids: seq<string>, r: map<string, User>)
    requires |ids| == |seeds| > 0
    requires var next := SeedFirst(users, seeds[0], ids[0]);
             && (forall e :: e in next ==> e in r && r[e] == next[e])
             && (forall i :: 0 <= i < |seeds[1..]| ==> seeds[1..][i].email in r)
             && (forall e :: e in r && e !in next ==>
                   exists i: nat :: FirstSeed(seeds[1..], i) && seeds[1..][i].email == e
                                    && r[e] == User(ids[1..][i], e, seeds[1..][i].password))
             && (forall e :: e in r ==> e in next || exists i :: 0 <= i < |seeds[1..]| && seeds[1..][i].email == e)
    ensures forall e :: e in users ==> e in r && r[e] == users[e]
    ensures forall i :: 0 <= i < |seeds| ==> seeds[i].email in r
    ensures forall e :: e in r && e !in users ==>
              exists i: nat :: FirstSeed(seeds, i) && seeds[i].email == e && r[e] == User(ids[i], e, seeds[i].password)
    ensures forall e :: e in r ==> e in users || exists i :: 0 <= i < |seeds| && seeds[i].email == e
  {
    var next := SeedFirst(users, seeds[0], ids[0]);
    SeedStepPresent(seeds, next, r);
    SeedStepOrigin(users, seeds, next, r);
    forall e | e in r && e !in users
      ensures exists i: nat :: FirstSeed(seeds, i) && seeds[i].email == e && r[e] == User(ids[i], e, seeds[i].password)
    {
      if e in next {
        assert FirstSeed(seeds, 0);
      } else {
        SeedStepFirst(seeds, ids, r, e);
      }
    }
  }

  /** Every seed email is in the result, the first one through `next`. */
  lemma SeedStepPresent(seeds: seq<SeedUser>, next: map<string, User>, r: map<string, User>)
    requires |seeds| > 0 && seeds[0].email in next
    requires forall e :: e in next ==> e in r
    requires forall i :: 0 <= i < |seeds[1..]| ==> seeds[1..][i].email in r
    ensures forall i :: 0 <= i < |seeds| ==> seeds[i].email in r
  {
    forall i | 0 <= i < |seeds| ensures seeds[i].email in r {
      if i > 0 { assert seeds[i] == seeds[1..][i - 1]; }
    }
  }

  /** Every key of the result was there before or is a seed email. */
  lemma SeedStepOrigin(users: map<string, User>, seeds: seq<SeedUser>, next: map<string, User>, r: map<string, User>)
    requires |seeds| > 0
    requires forall e :: e in next ==> e in users || e == seeds[0].email
    requires forall e :: e in r ==> e in next || exists i :: 0 <= i < |seeds[1..]| && seeds[1..][i].email == e
    ensures forall e :: e in r ==> e in users || exists i :: 0 <= i < |seeds| && seeds[i].email == e
  {
    forall e | e in r ensures e in users || exists i :: 0 <= i < |seeds| && seeds[i].email == e {
      if e !in next {
        var i :| 0 <= i < |seeds[1..]| && seeds[1..][i].email == e;
        assert seeds[i + 1].email == e;
      } else if e !in users {
        assert seeds[0].email == e;
      }
    }
  }

  /** A key added by the rest of the loop comes from the first seed with
      that email in the whole list, as the first seed's email was taken. */
  lemma SeedStepFirst(seeds: seq<SeedUser>, ids: seq<string>, r: map<string, User>, e: string)
    requires |ids| == |seeds| > 0 && e != seeds[0].email && e in r
    requires exists i: nat :: FirstSeed(seeds[1..], i) && seeds[1..][i].email == e
                              && r[e] == User(ids[1..][i], e, seeds[1..][i].password)
    ensures exists i: nat :: FirstSeed(seeds, i) && seeds[i].email == e && r[e] == User(ids[i], e, seeds[i].password)
  {
    var i: nat :| FirstSeed(seeds[1..], i) && seeds[1..][i].email == e
                  && r[e] == User(ids[1..][i], e, seeds[1..][i].password);
    assert FirstSeed(seeds, i + 1) by {
      forall j | 0 <= j < i + 1 ensures seeds[j].email != seeds[i + 1].email {
        if j > 0 { assert seeds[j] == seeds[1..][j - 1]; }
      }
    }
  }

  /** `ensureSeedUsers`: only the user keys change. */
  function EnsureSeedUsers(kv: Kv, seeds: seq<SeedUser>, ids: seq<string>): (r: Kv)
    requires |ids| == |seeds|
    ensures r.items == kv.items && r.lists == kv.lists
    ensures forall e :: e in kv.users ==> e in r.users && r.users[e] == kv.users[e]
    ensures forall i :: 0 <= i < |seeds| ==> seeds[i].email in r.users
  {
    kv.(users := SeedUsers(kv.users, seeds, ids))
  }

  /** Seeding with emails that are all stored changes nothing. */
  lemma {:induction false} SeedUsersPresent(users: map<string, User>, seeds: seq<SeedUser>, ids: seq<string>)
    requires |ids| == |seeds|
    requires forall i :: 0 <= i < |seeds| ==> seeds[i].email in users
    ensures SeedUsers(users, seeds, ids) == users
    decreases |seeds|
  {
    if |seeds| > 0 {
      forall i | 0 <= i < |seeds| - 1 ensures seeds[1..][i].email in users {
        assert seeds[1..][i] == seeds[i + 1];
      }
      SeedUsersPresent(users, seeds[1..], ids[1..]);
    }
  }

  /** Seeding twice with the same list adds nothing the second time. */
  lemma SeedIdempotent(kv: Kv, seeds: seq<SeedUser>, ids1: seq<string>, ids2: seq<string>)
    requires |ids1| == |seeds| && |ids2| == |seeds|
    ensures EnsureSeedUsers(EnsureSeedUsers(kv, seeds, ids1), seeds, ids2) == EnsureSeedUsers(kv, seeds, ids1)
  {
    var once := EnsureSeedUsers(kv, seeds, ids1);
    SeedUsersPresent(once.users, seeds, ids2);
  }

  /** `addHistory`: writes the entry under its id and pushes the id onto the
      front of the caller's list (`LPUSH`); nothing else changes. */
  function AddHistory(kv: Kv, userId: string, ip: string, data: RawGeo, id: string, now: nat): (r: Kv)
    ensures r.users == kv.users
    ensures id in r.items && r.items[id] == HistoryItem(id, userId, ip, data, now)
    ensures forall k :: k != id ==> (k in r.items <==> k in kv.items) && (k in kv.items ==> r.items[k] == kv.items[k])
    ensures |Index(r, userId)| > 0 && Index(r, userId)[0] == id && Index(r, userId)[1..] == Index(kv, userId)
    ensures forall u :: u != userId ==> Index(r, u) == Index(kv, u)
  {
    var item := HistoryItem(id, userId, ip, data, now);
    Kv(kv.users, kv.items[id := item], kv.lists[userId := [id] + Index(kv, userId)])
  }

  /** The id is stored as an entry key. */
  function Present(items: map<string, HistoryItem>): string -> bool {
    (id: string) => id in items
  }

  /** `r` holds the entries stored under `found`, one for one, in order. */
  predicate EntriesOf(r: seq<HistoryItem>, found: seq<string>, items: map<string, HistoryItem>) {
    |r| == |found| && forall i :: 0 <= i < |r| ==> found[i] in items && r[i] == items[found[i]]
  }

  /** Fetching each id's entry (one pipelined `GET` per id) and keeping only
      those that came back: the entries of the present ids, in list order. */
  function Resolve(ids: seq<string>, items: map<string, HistoryItem>): (r: seq<HistoryItem>)
    ensures EntriesOf(r, Seqs.Filter(ids, Present(items)), items)
    decreases |ids|
  {
    if |ids| == 0 then []
    else
      var rest := Resolve(ids[1..], items);
      if ids[0] in items then
        ResolveStored(ids, items, rest);
        [items[ids[0]]] + rest
      else
        ResolveMissing(ids, items, rest);
        rest
  }

  /** The inductive step of `Resolve` when the first id is stored. */
  lemma ResolveStored(ids: seq<string>, items: map<string, HistoryItem>, rest: seq<HistoryItem>)
    requires |ids| > 0 && ids[0] in items
    requires EntriesOf(rest, Seqs.Filter(ids[1..], Present(items)), items)
    ensures EntriesOf([items[ids[0]]] + rest, Seqs.Filter(ids, Present(items)), items)
  {
    assert Seqs.Filter(ids, Present(items)) == [ids[0]] + Seqs.Filter(ids[1..], Present(items));
    EntriesCons(ids[0], Seqs.Filter(ids[1..], Present(items)), items, rest);
  }

  /** Entries of a stored id followed by entries of further ids. */
  lemma EntriesCons(id: string, found: seq<string>, items: map<string, HistoryItem>, rest: seq<HistoryItem>)
    requires id in items && EntriesOf(rest, found, items)
    ensures EntriesOf([items[id]] + rest, [id] + found, items)
  {
    var r := [items[id]] + rest;
    var f := [id] + found;
    forall i | 1 <= i < |r| ensures f[i] in items && r[i] == items[f[i]] {
      assert r[i] == rest[i - 1] && f[i] == found[i - 1];
    }
  }

  /** The inductive step of `Resolve` when the first id's entry is missing. */
  lemma ResolveMissing(ids: seq<string>, items: map<string, HistoryItem>, rest: seq<HistoryItem>)
    requires |ids| > 0 && ids[0] !in items
    requires EntriesOf(rest, Seqs.Filter(ids[1..], Present(items)), items)
    ensures EntriesOf(rest, Seqs.Filter(ids, Present(items)), items)
  {
    assert Seqs.Filter(ids, Present(items)) == Seqs.Filter(ids[1..], Present(items));
  }

  /** The ids `LRANGE key 0 100` returns: at most the first 101. */
  function Window(ids: seq<string>): (w: seq<string>)
    ensures |w| <= ListStop + 1
    ensures w <= ids
    ensures |ids| <= ListStop + 1 ==> w == ids
    ensures |ids| > ListStop + 1 ==> |w| == ListStop + 1
  {
    if |ids| <= ListStop + 1 then ids else ids[..ListStop + 1]
  }

  /** `listHistory`: at most 101 entries, in list order (newest pushed
      first), skipping ids whose entry key is missing; no owner filter. */
  function ListHistory(kv: Kv, userId: string): (r: seq<HistoryItem>)
    ensures |r| <= ListStop + 1
    ensures forall x :: x in r ==>
              exists i :: 0 <= i < |Index(kv, userId)| && i <= ListStop
                          && Index(kv, userId)[i] in kv.items && kv.items[Index(kv, userId)[i]] == x
    ensures EntriesOf(r, Seqs.Filter(Window(Index(kv, userId)), Present(kv.items)), kv.items)
  {
    var ids := Window(Index(kv, userId));
    var r := Resolve(ids, kv.items);
    ResolvedFromWindow(Index(kv, userId), kv.items, r);
    r
  }

  /** Every entry resolved from the window comes from a stored id at
      position at most `ListStop`. */
  lemma ResolvedFromWindow(ids: seq<string>, items: map<string, HistoryItem>, r: seq<HistoryItem>)
    requires EntriesOf(r, Seqs.Filter(Window(ids), Present(items)), items)
    ensures forall x :: x in r ==>
              exists i :: 0 <= i < |ids| && i <= ListStop && ids[i] in items && items[ids[i]] == x
  {
    var w := Window(ids);
    var found := Seqs.Filter(w, Present(items));
    forall x | x in r ensures exists i :: 0 <= i < |ids| && i <= ListStop && ids[i] in items && items[ids[i]] == x {
      var k :| 0 <= k < |r| && r[k] == x;
      assert found[k] in w;
      var i :| 0 <= i < |w| && w[i] == found[k];
      assert ids[i] == w[i];
    }
  }

  /** When every listed id is stored and the list is short enough, the
      listing is exactly the entries in list order. */
  lemma ListAllPresent(kv: Kv, userId: string)
    requires |Index(kv, userId)| <= ListStop + 1
    requires forall i :: 0 <= i < |Index(kv, userId)| ==> Index(kv, userId)[i] in kv.items
    ensures |ListHistory(kv, userId)| == |Index(kv, userId)|
    ensures forall i :: 0 <= i < |Index(kv, userId)| ==> ListHistory(kv, userId)[i] == kv.items[Index(kv, userId)[i]]
  {
    Seqs.FilterKeepsAll(Index(kv, userId), Present(kv.items));
  }

  /** The cap is 101, not 100: a long list of stored ids lists 101 entries. */
  lemma ListReturns101(kv: Kv, userId: string)
    requires |Index(kv, userId)| > ListStop + 1
    requires forall i :: 0 <= i < |Index(kv, userId)| ==> Index(kv, userId)[i] in kv.items
    ensures |ListHistory(kv, userId)| == 101
  {
    var w := Window(Index(kv, userId));
    assert forall i :: 0 <= i < |w| ==> w[i] == Index(kv, userId)[i];
    Seqs.FilterKeepsAll(w, Present(kv.items));
  }

  /** After `addHistory`, the new entry heads the caller's listing. */
  lemma AddHistoryListedFirst(kv: Kv, userId: string, ip: string, data: RawGeo, id: string, now: nat)
    ensures var r := ListHistory(AddHistory(kv, userId, ip, data, id, now), userId);
            |r| > 0 && r[0] == HistoryItem(id, userId, ip, data, now)
  {
    var kv' := AddHistory(kv, userId, ip, data, id, now);
    var w := Window(Index(kv', userId));
    assert w[0] == id;
    assert w == [id] + w[1..];
    Seqs.FilterAppend([id], w[1..], Present(kv'.items));
    assert Seqs.Filter([id], Present(kv'.items)) == [id];
  }

  /** The id whose entry key `history:<id>` is the list key of `userId`. */
  function ListKey(userId: string): string {
    "list:" + userId
  }

  /** `deleteHistory` as written: for each id, `DEL history:<id>` and
      `LREM history:list:<userId> 0 <id>`. Every listed entry key is deleted
      whoever owns it; an id `list:<u>` deletes user `u`'s whole list; only
      the caller's list is otherwise edited; users are untouched. */
  function DeleteHistory(kv: Kv, userId: string, ids: seq<string>): (r: Kv)
    ensures r.users == kv.users
    ensures forall k :: k in r.items <==> k in kv.items && k !in ids
    ensures forall k :: k in r.items ==> r.items[k] == kv.items[k]
    ensures forall k :: k in Index(r, userId) <==> k in Index(kv, userId) && k !in ids && ListKey(userId) !in ids
    ensures ListKey(userId) !in ids ==> Index(r, userId) == Seqs.Filter(Index(kv, userId), NotIn(ids))
    ensures forall u :: ListKey(u) in ids ==> Index(r, u) == []
    ensures forall u :: u != userId && ListKey(u) !in ids ==> Index(r, u) == Index(kv, u)
  {
    var items := map k | k in kv.items && k !in ids :: kv.items[k];
    var lists := map u | u in kv.lists && ListKey(u) !in ids :: kv.lists[u];
    Kv(kv.users, items, RemoveFromList(lists, userId, ids))
  }

  /** The ids not listed for deletion. */
  function NotIn(ids: seq<string>): string -> bool {
    (k: string) => k !in ids
  }

  /** `LREM key 0 id` for every listed id: every occurrence goes, the rest
      keep their order; a missing list stays missing. */
  function RemoveFromList(lists: map<string, seq<string>>, userId: string, ids: seq<string>): (r: map<string, seq<string>>)
    ensures r.Keys == lists.Keys
    ensures forall u :: u in lists && u != userId ==> r[u] == lists[u]
    ensures userId in lists ==> r[userId] == Seqs.Filter(lists[userId], NotIn(ids))
  {
    if userId in lists then lists[userId := Seqs.Filter(lists[userId], NotIn(ids))] else lists
  }

  /** As written, `deleteHistory` is not scoped to the caller: another user's
      entry disappears from that user's listing when the caller passes its
      id, although the id stays in that user's list. */
  lemma DeleteCrossesOwners()
    ensures var item := HistoryItem("h1", "bob", "8.8.8.8", NoGeo, 1);
            var kv := Kv(map[], map["h1" := item], map["bob" := ["h1"]]);
            var after := DeleteHistory(kv, "alice", ["h1"]);
            && ListHistory(kv, "bob") == [item]
            && ListHistory(after, "bob") == []
            && Index(after, "bob") == ["h1"]
  {
    var item := HistoryItem("h1", "bob", "8.8.8.8", NoGeo, 1);
    var kv := Kv(map[], map["h1" := item], map["bob" := ["h1"]]);
    var after := DeleteHistory(kv, "alice", ["h1"]);
    ListAllPresent(kv, "bob");
    assert "h1" !in after.items;
    assert Window(Index(after, "bob")) == ["h1"];
    assert Seqs.Filter(["h1"], Present(after.items)) == [];
  }

  /** As written, an id of the form `list:<u>` deletes user `u`'s list key:
      a delete by alice naming `list:bob` empties bob's listing although
      none of his entries was named. */
  lemma DeleteWipesList()
    ensures var item := HistoryItem("h1", "bob", "8.8.8.8", NoGeo, 1);
            var kv := Kv(map[], map["h1" := item], map["bob" := ["h1"]]);
            var after := DeleteHistory(kv, "alice", [ListKey("bob")]);
            && ListHistory(kv, "bob") == [item]
            && after.items == kv.items
            && ListHistory(after, "bob") == []
  {
    var item := HistoryItem("h1", "bob", "8.8.8.8", NoGeo, 1);
    var kv := Kv(map[], map["h1" := item], map["bob" := ["h1"]]);
    ListAllPresent(kv, "bob");
  }

  /** The corrected delete never touches a list other than the caller's:
      on the same store, bob's listing survives alice naming `list:bob`. */
  lemma ScopedKeepsList()
    ensures var item := HistoryItem("h1", "bob", "8.8.8.8", NoGeo, 1);
            var kv := Kv(map[], map["h1" := item], map["bob" := ["h1"]]);
            ListHistory(DeleteHistoryScoped(kv, "alice", [ListKey("bob")]), "bob") == [item]
  {
    var item := HistoryItem("h1", "bob", "8.8.8.8", NoGeo, 1);
    var kv := Kv(map[], map["h1" := item], map["bob" := ["h1"]]);
    var after := DeleteHistoryScoped(kv, "alice", [ListKey("bob")]);
    assert Index(after, "bob") == ["h1"];
    ListAllPresent(after, "bob");
  }

  /** Every stored entry reachable from a user's list belongs to that user. */
  ghost predicate Consistent(kv: Kv) {
    forall u, i :: 0 <= i < |Index(kv, u)| && Index(kv, u)[i] in kv.items ==> kv.items[Index(kv, u)[i]].userId == u
  }

  /** `deleteHistory` with the owner check the file store's `deleteHistory` makes:
      an entry key is deleted only when its entry belongs to the caller; the
      caller's list is edited as before. */
  function DeleteHistoryScoped(kv: Kv, userId: string, ids: seq<string>): (r: Kv)
    ensures r.users == kv.users
    ensures forall k :: k in r.items <==> k in kv.items && !(k in ids && kv.items[k].userId == userId)
    ensures forall k :: k in r.items ==> r.items[k] == kv.items[k]
    ensures forall k :: k in Index(r, userId) <==> k in Index(kv, userId) && k !in ids
    ensures Index(r, userId) == Seqs.Filter(Index(kv, userId), NotIn(ids))
    ensures forall u :: u != userId ==> Index(r, u) == Index(kv, u)
  {
    var items := map k | k in kv.items && !(k in ids && kv.items[k].userId == userId) :: kv.items[k];
    Kv(kv.users, items, RemoveFromList(kv.lists, userId, ids))
  }

  /** Resolving ids against two maps that agree on those ids gives the same
      entries. */
  lemma {:induction false} ResolveAgree(ids: seq<string>, m1: map<string, HistoryItem>, m2: map<string, HistoryItem>)
    requires forall i :: 0 <= i < |ids| ==> (ids[i] in m1 <==> ids[i] in m2)
    requires forall i :: 0 <= i < |ids| && ids[i] in m1 ==> m1[ids[i]] == m2[ids[i]]
    ensures Resolve(ids, m1) == Resolve(ids, m2)
    decreases |ids|
  {
    if |ids| > 0 {
      ResolveAgree(ids[1..], m1, m2);
    }
  }

  /** With the owner check, deletion by one user leaves every other user's
      listing unchanged, even when the ids passed are that user's. */
  lemma DeleteScopedOthersUnchanged(kv: Kv, userId: string, ids: seq<string>, other: string)
    requires Consistent(kv)
    requires other != userId
    ensures ListHistory(DeleteHistoryScoped(kv, userId, ids), other) == ListHistory(kv, other)
  {
    var r := DeleteHistoryScoped(kv, userId, ids);
    var w := Window(Index(kv, other));
    assert Index(r, other) == Index(kv, other);
    forall i | 0 <= i < |w| && w[i] in kv.items ensures w[i] in r.items {
      assert Index(kv, other)[i] == w[i];
    }
    ResolveAgree(w, r.items, kv.items);
  }

  /** A fresh id, unused as a key and in every list, keeps the store consistent. */
  lemma AddHistoryKeepsConsistent(kv: Kv, userId: string, ip: string, data: RawGeo, id: string, now: nat)
    requires Consistent(kv)
    requires id !in kv.items
    requires forall u :: id !in Index(kv, u)
    ensures Consistent(AddHistory(kv, userId, ip, data, id, now))
  {
    var r := AddHistory(kv, userId, ip, data, id, now);
    forall u, i | 0 <= i < |Index(r, u)| && Index(r, u)[i] in r.items
      ensures r.items[Index(r, u)[i]].userId == u
    {
      var k := Index(r, u)[i];
      if u == userId {
        if i > 0 { assert k == Index(kv, u)[i - 1]; }
      } else {
        assert k in Index(kv, u);
      }
    }
  }

  /** The scoped deletion keeps the store consistent. */
  lemma DeleteScopedKeepsConsistent(kv: Kv, userId: string, ids: seq<string>)
    requires Consistent(kv)
    ensures Consistent(DeleteHistoryScoped(kv, userId, ids))
  {
    var r := DeleteHistoryScoped(kv, userId, ids);
    forall u, i | 0 <= i < |Index(r, u)| && Index(r, u)[i] in r.items
      ensures r.items[Index(r, u)[i]].userId == u
    {
      var k := Index(r, u)[i];
      assert k in Index(kv, u);
      var j :| 0 <= j < |Index(kv, u)| && Index(kv, u)[j] == k;
    }
  }
}

=== FILE: records.dfy ===
/** The records the application stores and exchanges. */
module Records {
  import opened Wrappers

  /** A stored account. The password is kept and compared as plain text. */
  datatype User = User(id: string, email: string, password: string)

  /** One entry of the seed list given to `ensureSeedUsers`. */
  datatype SeedUser = SeedUser(email: string, password: string)

  /** An upstream geolocation answer, as loosely typed JSON: the fields of the
      keyed provider (`ip`, `region`, `org`, `loc`) and of the keyless one
      (`query`, `isp`, `lat`, `lon`) side by side, each possibly absent. */
  datatype RawGeo = RawGeo(
    ip: Option<string>,
    query: Option<string>,
    city: Option<string>,
    region: Option<string>,
    country: Option<string>,
    org: Option<string>,
    isp: Option<string>,
    loc: Option<string>,
    lat: Option<real>,
    lon: Option<real>)

  /** The answer with every field absent (`{}`). */
  const NoGeo := RawGeo(None, None, None, None, None, None, None, None, None, None)

  /** One lookup in a user's history. `createdAt` is the instant of insertion;
      the source stores it as an ISO-8601 string of one fixed format, whose
      string order is the order of the instants. */
  datatype HistoryItem = HistoryItem(id: string, userId: string, ip: string, data: RawGeo, createdAt: nat)

  /** The identity a verified session carries (`req.user`). */
  datatype AuthUser = AuthUser(id: string, email: string)

  /** The payload of a session token: `{sub, email}`. */
  datatype Claims = Claims(sub: string, email: string)

  /** `seeds[i]` is the first entry of the seed list with its email. */
  predicate FirstSeed(seeds: seq<SeedUser>, i: nat) {
    i < |seeds| && forall j :: 0 <= j < i ==> seeds[j].email != seeds[i].email
  }
}

=== FILE: selection.dfy ===
/** Checkbox selections over history ids, as both client pages keep them. */
module Selection {

  /** Flips the membership of one id (`has` ? `delete` : `add`). */
  function Toggle(sel: set<string>, id: string): (r: set<string>)
    ensures id in r <==> id !in sel
    ensures forall x :: x != id ==> (x in r <==> x in sel)
  {
    if id in sel then sel - {id} else sel + {id}
  }

  /** Toggling the same id twice restores the selection. */
  lemma ToggleTwice(sel: set<string>, id: string)
    ensures Toggle(Toggle(sel, id), id) == sel
  {
  }

  /** `new Set(ids)`. */
  function IdSet(ids: seq<string>): (r: set<string>)
    ensures forall x :: x in r <==> x in ids
  {
    set x | x in ids
  }

  /** No id occurs twice. */
  predicate Distinct(ids: seq<string>) {
    forall i, j :: 0 <= i < j < |ids| ==> ids[i] != ids[j]
  }

  /** The set of distinct ids has as many elements as the list. */
  lemma {:induction false} DistinctSize(ids: seq<string>)
    requires Distinct(ids)
    ensures |IdSet(ids)| == |ids|
    decreases |ids|
  {
    if |ids| > 0 {
      var rest := ids[1..];
      DistinctSize(rest);
      assert IdSet(ids) == IdSet(rest) + {ids[0]};
      assert ids[0] !in IdSet(rest);
    }
  }

  /** `selectAll`: when the selection's size equals the history length it is
      cleared; otherwise it becomes exactly the history's ids. Only sizes
      are compared. */
  function SelectAll(sel: set<string>, ids: seq<string>): (r: set<string>)
    ensures |sel| == |ids| ==> r == {}
    ensures |sel| != |ids| ==> forall x :: x in r <==> x in ids
  {
    if |sel| == |ids| then {} else IdSet(ids)
  }

  /** With distinct ids, `selectAll` toggles between everything and nothing:
      a full selection is cleared, and any other selection pressed twice ends
      empty. */
  lemma SelectAllTogglesAll(sel: set<string>, ids: seq<string>)
    requires Distinct(ids)
    ensures SelectAll(IdSet(ids), ids) == {}
    ensures |sel| != |ids| ==> SelectAll(SelectAll(sel, ids), ids) == {}
  {
    DistinctSize(ids);
  }

  /** Because only sizes are compared, a selection of the right size holding
      ids not in the history is cleared rather than completed. */
  lemma SelectAllComparesSizesOnly(stale: string, id: string)
    requires stale != id
    ensures SelectAll({stale}, [id]) == {}
  {
  }
}

=== FILE: seqs.dfy ===
/** `Array.prototype.filter` on sequences, shared by the stores and the
    client-side history list. */
module Seqs {

  /** The elements of `s` that satisfy `keep`, in their original order. */
  function Filter<T(!new)>(s: seq<T>, keep: T -> bool): (r: seq<T>)
    ensures |r| <= |s|
    ensures forall x :: x in r <==> x in s && keep(x)
    ensures forall x :: multiset(r)[x] == if keep(x) then multiset(s)[x] else 0
    decreases |s|
  {
    if |s| == 0 then []
    else
      var rest := Filter(s[1..], keep);
      assert s == [s[0]] + s[1..];
      if keep(s[0]) then [s[0]] + rest else rest
  }

  /** Filtering distributes over concatenation, so it keeps the relative order
      of what it keeps. */
  lemma {:induction false} FilterAppend<T(!new)>(a: seq<T>, b: seq<T>, keep: T -> bool)
    ensures Filter(a + b, keep) == Filter(a, keep) + Filter(b, keep)
    decreases |a|
  {
    if |a| == 0 {
      assert a + b == b;
    } else {
      assert (a + b)[1..] == a[1..] + b;
      FilterAppend(a[1..], b, keep);
    }
  }

  /** `r` is `s` with some elements dropped and the rest in their order. */
  predicate SubsequenceOf<T(==)>(r: seq<T>, s: seq<T>)
    decreases |s|
  {
    |r| == 0 || (|s| > 0 && ((r[0] == s[0] && SubsequenceOf(r[1..], s[1..])) || SubsequenceOf(r, s[1..])))
  }

  /** What a filter keeps stays in its original order. */
  lemma {:induction false} FilterSubsequence<T(!new)>(s: seq<T>, keep: T -> bool)
    ensures SubsequenceOf(Filter(s, keep), s)
    decreases |s|
  {
    if |s| > 0 {
      FilterSubsequence(s[1..], keep);
      if keep(s[0]) {
        assert Filter(s, keep)[1..] == Filter(s[1..], keep);
      }
    }
  }

  /** Filtering with a test every element passes changes nothing. */
  lemma {:induction false} FilterKeepsAll<T(!new)>(s: seq<T>, keep: T -> bool)
    requires forall i :: 0 <= i < |s| ==> keep(s[i])
    ensures Filter(s, keep) == s
    decreases |s|
  {
    if |s| > 0 {
      FilterKeepsAll(s[1..], keep);
    }
  }

  /** Filtering by a stricter test after a looser one is filtering by the
      stricter test alone. */
  lemma {:induction false} FilterFilter<T(!new)>(s: seq<T>, p: T -> bool, q: T -> bool)
    requires forall i :: 0 <= i < |s| ==> q(s[i]) ==> p(s[i])
    ensures Filter(Filter(s, p), q) == Filter(s, q)
    decreases |s|
  {
    if |s| > 0 {
      FilterFilter(s[1..], p, q);
    }
  }
}

=== FILE: session.dfy ===
/** Session extraction and the authentication middlewares. Token
    verification (`jwt.verify`) is a parameter: it maps a token and a secret
    to the claims it carries, or to nothing when the signature or expiry
    check fails. */
module Session {
  import opened Wrappers
  import opened Records
  import opened Strings

  /** The raw `Cookie` header as Node gives it: absent, one string, or several. */
  datatype CookieHeader = NoHeader | Single(value: string) | Multiple(values: seq<string>)

  /** The prefix of the session cookie inside the raw header. */
  const TokenPrefix := "token="

  /** The fallback signing secret when `JWT_SECRET` is not set. */
  const DevSecret := "dev-secret"

  /** `process.env.JWT_SECRET || 'dev-secret'`. */
  function SecretOf(env: Option<string>): (s: string)
    ensures Truthy(env) ==> s == env.value
    ensures !Truthy(env) ==> s == DevSecret
  {
    if Truthy(env) then env.value else DevSecret
  }

  /** The header as one string; several values are joined with `;`. */
  function HeaderText(h: CookieHeader): string
    requires !h.NoHeader?
  {
    match h
    case Single(v) => v
    case Multiple(vs) => Join(vs, ';')
  }

  /** The trimmed `;`-separated parts of a header. */
  function Parts(text: string): (ps: seq<string>)
    ensures |ps| == |Split(text, ';')|
    ensures forall i :: 0 <= i < |ps| ==> ps[i] == Trim(Split(text, ';')[i])
  {
    var raw := Split(text, ';');
    seq(|raw|, i requires 0 <= i < |raw| => Trim(raw[i]))
  }

  /** `parts[i]` is the first part that starts with `token=`. */
  predicate FirstTokenPart(parts: seq<string>, i: nat) {
    && i < |parts|
    && StartsWith(parts[i], TokenPrefix)
    && forall j :: 0 <= j < i ==> !StartsWith(parts[j], TokenPrefix)
  }

  /** The loop of `extractTokenFromHeader` over the parts: the text after
      `token=` in the first part that starts with it. */
  function TokenIn(parts: seq<string>): (r: Option<string>)
    ensures r.None? <==> forall j :: 0 <= j < |parts| ==> !StartsWith(parts[j], TokenPrefix)
    ensures r.Some? ==> exists i: nat :: FirstTokenPart(parts, i) && TokenPrefix + r.value == parts[i]
    decreases |parts|
  {
    if |parts| == 0 then None
    else if StartsWith(parts[0], TokenPrefix) then
      assert FirstTokenPart(parts, 0);
      Some(parts[0][|TokenPrefix|..])
    else
      var r := TokenIn(parts[1..]);
      if r.Some? then
        var i: nat :| FirstTokenPart(parts[1..], i) && TokenPrefix + r.value == parts[1..][i];
        assert FirstTokenPart(parts, i + 1) by {
          forall j | 0 <= j < i + 1 ensures !StartsWith(parts[j], TokenPrefix) {
            if j > 0 { assert parts[j] == parts[1..][j - 1]; }
          }
        }
        r
      else
        assert forall j :: 1 <= j < |parts| ==> parts[j] == parts[1..][j - 1];
        r
  }

  /** `extractTokenFromHeader`: nothing for a missing or empty header;
      otherwise the value of the first trimmed `;`-part that starts with
      `token=`, or nothing when none does. */
  function ExtractTokenFromHeader(h: CookieHeader): (r: Option<string>)
    ensures h.NoHeader? || h == Single("") ==> r.None?
    ensures !h.NoHeader? && h != Single("") ==> r == TokenIn(Parts(HeaderText(h)))
  {
    if h.NoHeader? || h == Single("") then None
    else TokenIn(Parts(HeaderText(h)))
  }

  /** A later `token=` part never overrides an earlier one. */
  lemma {:induction false} FirstTokenWins(parts: seq<string>, more: seq<string>)
    requires TokenIn(parts).Some?
    ensures TokenIn(parts + more) == TokenIn(parts)
    decreases |parts|
  {
    if StartsWith(parts[0], TokenPrefix) {
      assert (parts + more)[0] == parts[0];
    } else {
      assert (parts + more)[1..] == parts[1..] + more;
      FirstTokenWins(parts[1..], more);
    }
  }

  /** A part such as `xtoken=abc` does not count as the session cookie. */
  lemma PrefixedNameIgnored(v: string)
    ensures TokenIn(["x" + TokenPrefix + v]) == None
  {
    var p := "x" + TokenPrefix + v;
    assert p[0] != TokenPrefix[0];
  }

  /** The token the middlewares use: the parsed `req.cookies.token` when it is
      truthy, otherwise the raw header's. */
  function RequestToken(cookieToken: Option<string>, header: CookieHeader): (r: Option<string>)
    ensures Truthy(cookieToken) ==> r == cookieToken
    ensures !Truthy(cookieToken) ==> r == ExtractTokenFromHeader(header)
  {
    if Truthy(cookieToken) then cookieToken else ExtractTokenFromHeader(header)
  }

  /** The outcome of a middleware: a 401 with an error message (`next` not
      called), or `next()` with the user attached, if any. */
  datatype Gate = Reject(status: nat, error: string) | Proceed(user: Option<AuthUser>)

  /** The user a verified token describes: `{id: sub, email}`. */
  function UserOf(c: Claims): AuthUser {
    AuthUser(c.sub, c.email)
  }

  /** `authMiddleware`: no token, or one that fails verification, is a 401
      `Unauthorized`; otherwise the request proceeds as the token's subject. */
  function AuthMiddleware(cookieToken: Option<string>, header: CookieHeader, secretEnv: Option<string>,
                          verify: (string, string) -> Option<Claims>): (g: Gate)
    ensures var t := RequestToken(cookieToken, header);
            && (g.Reject? <==> !Truthy(t) || verify(t.value, SecretOf(secretEnv)).None?)
            && (g.Reject? ==> g == Reject(401, "Unauthorized"))
            && (g.Proceed? ==> g.user == Some(UserOf(verify(t.value, SecretOf(secretEnv)).value)))
  {
    var t := RequestToken(cookieToken, header);
    if !Truthy(t) then Reject(401, "Unauthorized")
    else match verify(t.value, SecretOf(secretEnv))
      case None => Reject(401, "Unauthorized")
      case Some(c) => Proceed(Some(UserOf(c)))
  }

  /** `optionalAuth`: never responds; a user is attached exactly when a token
      is present and verifies. */
  function OptionalAuth(cookieToken: Option<string>, header: CookieHeader, secretEnv: Option<string>,
                        verify: (string, string) -> Option<Claims>): (g: Gate)
    ensures g.Proceed?
    ensures var t := RequestToken(cookieToken, header);
            g.user.Some? <==> Truthy(t) && verify(t.value, SecretOf(secretEnv)).Some?
  {
    var t := RequestToken(cookieToken, header);
    if !Truthy(t) then Proceed(None)
    else match verify(t.value, SecretOf(secretEnv))
      case None => Proceed(None)
      case Some(c) => Proceed(Some(UserOf(c)))
  }

  /** Optional authentication attaches the same user required authentication
      admits, and proceeds anonymously exactly where it rejects. */
  lemma OptionalAgreesWithRequired(cookieToken: Option<string>, header: CookieHeader, secretEnv: Option<string>,
                                   verify: (string, string) -> Option<Claims>)
    ensures var req := AuthMiddleware(cookieToken, header, secretEnv, verify);
            var opt := OptionalAuth(cookieToken, header, secretEnv, verify);
            && (req.Proceed? ==> opt == req)
            && (req.Reject? ==> opt == Proceed(None))
  {
  }

  /** The scheme prefix `authRequired` demands, case-sensitively. */
  const BearerPrefix := "Bearer "

  /** `authRequired`: a missing header, or one not starting with `Bearer `, is
      a 401 `Missing bearer token`; the token is the header minus its first
      seven characters; a failed verification is a 401 `Invalid or expired
      token`; otherwise the request proceeds as the token's subject. */
  function AuthRequired(authorization: Option<string>, secret: string,
                        verify: (string, string) -> Option<Claims>): (g: Gate)
    ensures (authorization.None? || !StartsWith(authorization.value, BearerPrefix))
            <==> g == Reject(401, "Missing bearer token")
    ensures authorization.Some? && StartsWith(authorization.value, BearerPrefix) ==>
              var token := authorization.value[7..];
              && BearerPrefix + token == authorization.value
              && (verify(token, secret).None? <==> g == Reject(401, "Invalid or expired token"))
              && (verify(token, secret).Some? ==> g == Proceed(Some(UserOf(verify(token, secret).value))))
  {
    if authorization.None? || authorization.value == "" || !StartsWith(authorization.value, BearerPrefix) then
      Reject(401, "Missing bearer token")
    else
      var token := authorization.value[7..];
      match verify(token, secret)
      case None => Reject(401, "Invalid or expired token")
      case Some(c) => Proceed(Some(UserOf(c)))
  }
}

=== FILE: strings.dfy ===
/** String helpers with the semantics of the JavaScript built-ins the
    application calls: `split` on one character, `join`, `trim`,
    `startsWith`, `replace` of a literal pattern. */
module Strings {
  import opened Wrappers

  /** True for the characters `String.prototype.trim` removes: white space
      and line terminators of the ECMAScript grammar. */
  predicate IsJsSpace(c: char) {
    var n := c as int;
    n == 0x09 || n == 0x0A || n == 0x0B || n == 0x0C || n == 0x0D || n == 0x20
    || n == 0xA0 || n == 0x1680 || (0x2000 <= n <= 0x200A) || n == 0x2028
    || n == 0x2029 || n == 0x202F || n == 0x205F || n == 0x3000 || n == 0xFEFF
  }

  /** ASCII decimal digit, the `\d` class of a JavaScript regular expression. */
  predicate IsDigit(c: char) {
    '0' <= c <= '9'
  }

  /** `s.startsWith(p)`. */
  predicate StartsWith(s: string, p: string) {
    |p| <= |s| && s[..|p|] == p
  }

  /** Removes `p` from the front of `s` once, if it is there (`s.replace(/^p/, '')`). */
  function StripPrefix(s: string, p: string): (r: string)
    ensures StartsWith(s, p) ==> p + r == s
    ensures !StartsWith(s, p) ==> r == s
  {
    if StartsWith(s, p) then s[|p|..] else s
  }

  /** Drops leading white space. */
  function TrimStart(s: string): (r: string)
    ensures |r| <= |s| && r == s[|s| - |r|..]
    ensures forall i :: 0 <= i < |s| - |r| ==> IsJsSpace(s[i])
    ensures r == [] || !IsJsSpace(r[0])
    decreases |s|
  {
    if |s| > 0 && IsJsSpace(s[0]) then TrimStart(s[1..]) else s
  }

  /** Drops trailing white space. */
  function TrimEnd(s: string): (r: string)
    ensures |r| <= |s| && r == s[..|r|]
    ensures forall i :: |r| <= i < |s| ==> IsJsSpace(s[i])
    ensures r == [] || !IsJsSpace(r[|r| - 1])
    decreases |s|
  {
    if |s| > 0 && IsJsSpace(s[|s| - 1]) then TrimEnd(s[..|s| - 1]) else s
  }

  /** Neither the first nor the last character is white space. */
  predicate NoEdgeSpace(r: string) {
    r == [] || (!IsJsSpace(r[0]) && !IsJsSpace(r[|r| - 1]))
  }

  /** `r` is the slice of `s` starting at `k`, with only white space around it. */
  predicate TrimmedAt(s: string, r: string, k: nat) {
    && k + |r| <= |s|
    && r == s[k..k + |r|]
    && (forall i :: 0 <= i < k ==> IsJsSpace(s[i]))
    && (forall i :: k + |r| <= i < |s| ==> IsJsSpace(s[i]))
  }

  /** Cutting white space off the front and then off the back leaves a
      slice with only white space around it. */
  lemma TrimmedSlice(s: string, t: string, r: string)
    requires |t| <= |s| && t == s[|s| - |t|..]
    requires forall i :: 0 <= i < |s| - |t| ==> IsJsSpace(s[i])
    requires |r| <= |t| && r == t[..|r|]
    requires forall i :: |r| <= i < |t| ==> IsJsSpace(t[i])
    requires t == [] || !IsJsSpace(t[0])
    requires r == [] || !IsJsSpace(r[|r| - 1])
    ensures TrimmedAt(s, r, |s| - |t|)
    ensures NoEdgeSpace(r)
  {
    var k := |s| - |t|;
    assert r == s[k..k + |r|];
    forall i | k + |r| <= i < |s| ensures IsJsSpace(s[i]) {
      assert s[i] == t[i - k];
    }
    if r != [] {
      assert r[0] == t[0];
    }
  }

  /** `s.trim()`: a contiguous slice of `s` that neither starts nor ends with
      white space, everything cut off around it being white space. */
  function Trim(s: string): (r: string)
    ensures exists k :: TrimmedAt(s, r, k)
    ensures NoEdgeSpace(r)
  {
    var t := TrimStart(s);
    var r := TrimEnd(t);
    TrimmedSlice(s, t, r);
    r
  }

  /** Index of the first `c` in `s`. */
  function IndexOf(s: string, c: char): (i: nat)
    requires c in s
    ensures i < |s| && s[i] == c && c !in s[..i]
  {
    if s[0] == c then 0 else 1 + IndexOf(s[1..], c)
  }

  /** `parts.join(sep)` for a one-character separator. */
  function Join(parts: seq<string>, sep: char): string {
    if |parts| == 0 then ""
    else if |parts| == 1 then parts[0]
    else parts[0] + [sep] + Join(parts[1..], sep)
  }

  /** `s.split(sep)` for a one-character separator: never empty, no part holds
      the separator, and joining the parts back gives `s`. */
  function Split(s: string, sep: char): (parts: seq<string>)
    ensures |parts| >= 1
    ensures forall i :: 0 <= i < |parts| ==> sep !in parts[i]
    ensures Join(parts, sep) == s
    decreases |s|
  {
    if sep !in s then [s]
    else
      var i := IndexOf(s, sep);
      assert s == s[..i] + [sep] + s[i + 1..];
      [s[..i]] + Split(s[i + 1..], sep)
  }

  /** Splitting undoes joining, for parts free of the separator. */
  lemma {:induction false} SplitJoin(parts: seq<string>, sep: char)
    requires |parts| >= 1
    requires forall i :: 0 <= i < |parts| ==> sep !in parts[i]
    ensures Split(Join(parts, sep), sep) == parts
    decreases |parts|
  {
    if |parts| == 1 {
      assert Join(parts, sep) == parts[0];
    } else {
      var rest := Join(parts[1..], sep);
      var s := parts[0] + [sep] + rest;
      assert Join(parts, sep) == s;
      assert sep in s by { assert s[|parts[0]|] == sep; }
      var i := IndexOf(s, sep);
      assert s[..|parts[0]|] == parts[0];
      assert i == |parts[0]|;
      assert s[..i] == parts[0];
      assert s[i + 1..] == rest;
      SplitJoin(parts[1..], sep);
      assert Split(s, sep) == [parts[0]] + parts[1..];
    }
  }

  /** True when `pat` occurs in `s` at position `j`. */
  predicate OccursAt(s: string, pat: string, j: nat) {
    j + |pat| <= |s| && s[j..j + |pat|] == pat
  }

  /** First position at or after `from` where `pat` occurs in `s`. */
  function FindFrom(s: string, pat: string, from: nat): (r: Option<nat>)
    requires from <= |s|
    ensures r.Some? ==> from <= r.value && OccursAt(s, pat, r.value)
    ensures r.Some? ==> forall j :: from <= j < r.value ==> !OccursAt(s, pat, j)
    ensures r.None? ==> forall j :: from <= j <= |s| ==> !OccursAt(s, pat, j)
    decreases |s| - from
  {
    if OccursAt(s, pat, from) then Some(from)
    else if from == |s| then None
    else FindFrom(s, pat, from + 1)
  }

  /** `s.replace(pat, '')` with a string pattern: removes the first occurrence
      of `pat`, wherever it is, and leaves `s` alone when there is none. */
  function RemoveFirst(s: string, pat: string): (r: string)
    ensures (forall j :: 0 <= j <= |s| ==> !OccursAt(s, pat, j)) ==> r == s
    ensures forall i :: 0 <= i <= |s| && OccursAt(s, pat, i)
                        && (forall j :: 0 <= j < i ==> !OccursAt(s, pat, j))
                        ==> r == s[..i] + s[i + |pat|..]
  {
    match FindFrom(s, pat, 0)
    case None => s
    case Some(i) => s[..i] + s[i + |pat|..]
  }
}

=== FILE: wrappers.dfy ===
/** Failure-compatible wrappers used throughout the model. */
module Wrappers {

  /** An optional value: JavaScript's `undefined`/`null` is `None`. */
  datatype Option<+T> = None | Some(value: T) {

    /** Returns the wrapped value, or `default` when there is none. */
    function GetOr(default: T): T {
      match this
      case Some(v) => v
      case None => default
    }
  }

  /** A computation that either succeeds with a value or fails with an error. */
  datatype Result<+R, +E> = Success(value: R) | Failure(error: E)

  /** JavaScript truthiness of an optional string: present and non-empty. */
  predicate Truthy(s: Option<string>) {
    s.Some? && s.value != ""
  }

  /** JavaScript's `a || b` on optional strings: `a` when truthy, else `b`. */
  function OrElse(a: Option<string>, b: Option<string>): (r: Option<string>)
    ensures Truthy(a) ==> r == a
    ensures !Truthy(a) ==> r == b
  {
    if Truthy(a) then a else b
  }
}
